=== FILE: README.md ===
# Book-Store cart lifecycle and catalog, in Dafny

This project models the core of a Django REST book shop:

- the cart view set: `get_user_cart`, `list`, `create`, `destroy`, `order_cart` and `delete_cart`;
- the catalog view set: `list`, `retrieve`, `create`, `update`, `partial_update` and `destroy`;
- the three database tables behind them (`Book`, `Cart`, `CartItem`) and their `ON DELETE CASCADE` foreign keys.

The database is an immutable `Store` with three tables keyed by `Id`, and a counter that hands out fresh keys. The store also holds the result cache of the catalog view set's class-level queryset, which lives in the server process and not in the database. Each handler is a pure function from a store, the authenticated caller and the request values to a new store and an `Outcome`. An `Outcome` is either a reply or one of the errors the handler reports.

Modules:

- `Values`: request values, Python truthiness and the `int()` conversion of a quantity and of a book key.
- `Outcomes`: the replies, the errors and their message texts.
- `Models`: the tables and the store invariants. It also has the lookups in key order, the sums over a cart's lines and the cascades.
- `CartViews`: the cart handlers.
- `BookViews`: the catalog handlers.
- `Api`: a dispatcher over all eleven handlers and the properties that hold across them.
  - Every request keeps the invariant.
  - Totals stay equal to the sums over the lines for the requests that recompute them.
  - Catalog writes need a superuser.
  - An ordered cart is never touched again.
  - The first two properties extend to whole runs of requests.
- `Findings`: three defects, two in the cart handlers and one in the catalog listing. Each is shown on a small store next to a corrected version.

Store invariants:

- `WellFormed`: keys lie below the counter, and every line points to an existing cart and book. The database guarantees this. The cart handlers and the catalog's `create` and `destroy` require it. Every request keeps it (`Api.Step`).
- `Valid`: adds three facts that the handlers themselves maintain:
  - at most one unordered cart per user;
  - at most one line per (cart, book);
  - unique book names.
- `Consistent`: every cart's `total_quantity` and `total_price` equal the sums of `quantity` and `price` over its lines.

Where the code's own comments, docstrings and error arms promise something its statements do not do, the model follows the statements:

- **Checkout is not atomic.** The `order_cart` docstring (cart/views.py:164) says the handler marks the cart as ordered and updates the stock. Yet each book's decrement is saved at once, and a later shortage returns with the cart still unordered (see Findings).
- **Totals can drift.** The comment at cart/views.py:99 says a line's `price` already is the price times the quantity. Removing a single line still recomputes `total_price` as the sum of `quantity * price`. Deleting a book cascades into cart lines without recomputing any total. So "totals equal the sums" holds only for the other requests (`Api.KeepsTotals`).
- **The catalog listing goes stale.** `list` reads the queryset stored on the class (book/views.py:13, 22). Its result cache is filled at the first listing and then reused by every later one (see Findings).
- **`delete_cart` never reports a missing cart.** Its `Cart.DoesNotExist` arm (cart/views.py:226) cannot be reached. The cart comes from `get_or_create`, which always finds or creates one.
- **A missing cart line is not a 404.** The `CartItem.DoesNotExist` arm at cart/views.py:142 cannot be reached. The inner arm turns that exception into `NotFound`, and the generic arm catches it.
- **The "already ordered" refusal of `order_cart` cannot happen.** The arm at cart/views.py:169-172 inspects a cart that is always the caller's unordered one.
- **There is no separate ownership check.** Every cart handler works on the caller's own active cart.

## Model

| member | source | states |
|---|---|---|
| Values.ParseInt | cart/views.py:74 | `int(quantity)` on text succeeds only if the text holds a decimal digit |
| Values.ParseIntOfDigits | cart/views.py:74 | a run of at most 4300 decimal digits converts to its decimal value; a longer run is refused, as by int()'s default digit limit |
| Values.ParseIntOfNegatedDigits | cart/views.py:74-76 | a minus sign followed by at most 4300 digits converts to the negated value, which the next check refuses; more digits are refused by the conversion |
| Values.ParseIntOfNatToString | cart/views.py:74 | the decimal rendering of a natural number of at most 4300 digits converts back to that number |
| Values.DigitsValueOfNatToString | cart/views.py:181 | a stock figure rendered in decimal reads back as the same figure |
| Outcomes.StockMessageReadsBack | cart/views.py:181 | the shortage message starts with the fixed prefix, then names the book, and its tail is the decimal digits of the available stock, which int() reads back within its digit limit |
| Models.FindActive | cart/views.py:22 | the lookup of the caller's unordered cart returns such a cart, or reports none only when no key holds one |
| Models.FindLine | cart/views.py:90 | the lookup of a (cart, book) line returns such a line, or reports none only when no key holds one |
| Models.LineIdsBelow | cart/views.py:177 | `cart.items.all()` lists only lines of that cart, in strictly ascending key order |
| Models.LineIdsComplete | cart/views.py:177 | every line of the cart appears in its listing |
| Models.LineIdsExact | cart/views.py:177 | a key is in the listing if and only if it is a line of the cart |
| Models.LineIdsEmpty | cart/views.py:173 | the cart's item count is zero if and only if the cart has no line |
| Models.EmptyListingSumsToZero | cart/views.py:133-134 | sums over a cart with no lines are 0 |
| Models.BookIdsBelow | book/views.py:22 | the catalog listing holds only existing books, in strictly ascending key order |
| Models.BookIdsComplete | book/views.py:22 | every book appears in the catalog listing |
| Models.BookIdsExact | book/views.py:22 | a key is in the catalog listing if and only if it is a book |
| Models.CartSumFrame | cart/views.py:98-99 | a cart's sums depend only on its own lines |
| Models.CartSumNoLines | cart/views.py:137-139 | a cart with no lines sums to 0, the value the clear branch stores |
| Models.CartSumReplace | cart/views.py:93-99 | overwriting a line moves the sum by the difference between the old and new amounts |
| Models.CartSumRemove | cart/views.py:130-134 | deleting a line lowers the sum by that line's amount |
| Models.CartSumAppend | cart/views.py:90-99 | a line created under a fresh key raises the sum by its amount |
| Models.ActiveCartsShrink | cart/views.py:22 | a change that creates no cart, moves no cart to another user and reopens no ordered cart keeps at most one unordered cart per user |
| Models.LinesShrink | cart/views.py:90 | a change that adds no line and re-links none keeps at most one line per (cart, book) |
| Models.NamesShrink | book/models.py:5 | a change that adds no book and renames none keeps book names unique |
| Models.EmptyStoreValid | cart/models.py:5-19 | an empty database satisfies every invariant |
| Models.DeleteCartCascade | cart/models.py:17 | deleting a cart removes exactly that cart and the lines that point to it; every surviving cart and line keeps its value, and books are untouched |
| Models.DeleteBookCascade | cart/models.py:16 | deleting a book removes exactly that book and every line that points to it, in any cart; every surviving book and line keeps its value, and no cart changes |
| Models.DeleteUserCascade | cart/models.py:9 | deleting a user removes exactly their carts and, through `book/models.py:10`, their books; a line survives if and only if both its cart and its book survive; every survivor keeps its value |
| Models.CartCascadeKeepsValid | cart/models.py:17 | deleting a cart keeps every invariant |
| Models.BookCascadeKeepsValid | cart/models.py:16 | deleting a book keeps every invariant |
| Models.UserCascadeKeepsValid | book/models.py:10 | deleting a user keeps every invariant |
| CartViews.GetUserCart | cart/views.py:17-23 | returns the caller's unordered cart, or creates it with zero totals under a fresh key and changes nothing else; with one unordered cart per user, it is that cart |
| CartViews.GetUserCartIdempotent | cart/views.py:22 | a second fetch returns the same cart and changes nothing |
| CartViews.GetUserCartKeepsInvariants | cart/views.py:22 | fetching the cart keeps every invariant and keeps totals equal to the sums |
| CartViews.List | cart/views.py:30-37 | shows the caller's active cart and exactly its lines |
| CartViews.GetOrCreateLine | cart/views.py:90 | returns the existing (cart, book) line, or a new line under a fresh key; with one line per (cart, book), it is that line |
| CartViews.Upsert | cart/views.py:88-100 | the (cart, book) line ends up holding the new quantity and `book.price * quantity`; no other line changes; the cart's totals equal its sums; other carts are untouched |
| CartViews.ValidateAdd | cart/views.py:71-78 | the three refusals, each if and only if its condition holds in the handler's order: missing or falsy values, then a failed `int()`, then a value below 1 |
| CartViews.Create | cart/views.py:60-110 | a refused request leaves only the fetched cart; once validation passes, the book key is converted by `int()` at the lookup: a key that is not a number is the uncaught `ValueError`, a number no book has is "Book not found.", each if and only if; on success the caller's active cart holds a line for the book with the quantity and subtotal, and its totals match |
| CartViews.ValidateAddRequired | cart/views.py:71-76 | an absent, zero or empty book key is refused as missing whatever the quantity, and an absent, zero or empty quantity whatever the book key; with a present book key, any negative quantity is refused as not positive |
| CartViews.CreateWithTextZeroKey | cart/views.py:71-86 | the book key "0" sent as text is truthy, so it passes the presence check and, with no book 0, is answered "Book not found." |
| CartViews.CreateWithTextKeyNoDigits | cart/views.py:80-82 | a book key sent as non-empty text without a digit ends in the uncaught `ValueError` of the lookup |
| CartViews.ValidateAddDecimal | cart/views.py:74-78 | the decimal text of n is accepted as n when n > 0 and refused as not positive when n = 0; past 4300 digits it is refused as not an integer |
| CartViews.CreateWithOverlongTextKey | cart/views.py:80-82 | a book key sent as more than 4300 digits ends in the uncaught `ValueError` of the lookup |
| CartViews.ValidateAddNegative | cart/views.py:74-78 | a minus sign followed by digits is refused as not positive, or as not an integer past 4300 digits |
| CartViews.ValidateAddNoDigits | cart/views.py:77-78 | non-empty text with no digit is refused as not an integer |
| CartViews.UpsertOverwrites | cart/views.py:90-99 | adding a book already in the cart overwrites its line rather than adding to it; both totals move by the difference between the new line and the old |
| CartViews.UpsertAppendsLine | cart/views.py:90 | adding a book not yet in the cart stores a new line under the next key |
| CartViews.UpsertAppends | cart/views.py:90-99 | adding a book not yet in the cart raises the quantity total by the quantity and the price total by the subtotal |
| CartViews.CreateKeepsInvariants | cart/views.py:60-100 | `create` keeps every invariant and keeps every cart's totals equal to its sums |
| CartViews.UpsertKeepsValid | cart/views.py:88-100 | the line update keeps every invariant |
| CartViews.UpsertSparesOtherCarts | cart/views.py:90-95 | the line update neither changes nor adds a line of any other cart |
| CartViews.UpsertKeepsOneLine | cart/views.py:90 | after the update, the written line is the only line for its (cart, book) |
| CartViews.UpsertKeepsConsistent | cart/views.py:98-99 | after the update, every cart's totals equal its sums |
| CartViews.RemoveLine | cart/views.py:129-135 | deletes exactly the given line; the quantity total becomes the sum of the remaining quantities, and the price total the sum of quantity × subtotal; both are 0 when no line is left |
| CartViews.ClearCart | cart/views.py:137-140 | deletes exactly the cart's lines and zeroes its totals; nothing else changes |
| CartViews.Destroy | cart/views.py:120-151 | errs if and only if a key was given that is not a line of the active cart, in which case nothing but the cart fetch happens; with a key, exactly that line goes and the cart's totals become the sum of the remaining quantities and the sum of quantity × subtotal; without one, the cart is left with no line and zero totals; on success every other cart keeps its value |
| CartViews.DestroyItemTotals | cart/views.py:133 | removing a line lowers the quantity total by that line's quantity; other carts keep matching totals |
| CartViews.ClearCartKeepsInvariants | cart/views.py:136-140 | clearing the cart keeps every invariant and keeps totals equal to the sums |
| CartViews.ClearCartKeepsValid | cart/views.py:137 | clearing a cart keeps every invariant |
| CartViews.ClearCartKeepsConsistent | cart/views.py:137-140 | a cleared cart's zero totals equal its (empty) sums, and other carts keep theirs |
| CartViews.DestroyItemKeepsValid | cart/views.py:127-135 | removing one line keeps every invariant |
| CartViews.RemoveLineKeepsValid | cart/views.py:130 | deleting one line keeps every invariant |
| CartViews.Take | cart/views.py:183-184 | serving a line lowers its book's stock by the quantity and changes nothing else |
| CartViews.Decrement | cart/views.py:177-184 | the loop changes stock figures only; when it stops, it stops at a line whose book has less stock than the line's quantity |
| CartViews.DecrementServes | cart/views.py:177-184 | a loop that completes lowers each book by exactly what all lines ask of it; a loop that stops lowers each book by exactly what the lines before the stopping one ask |
| CartViews.Serve | cart/views.py:177-186 | the walk and the flip change stock figures and at most the one cart; any failure is a shortage |
| CartViews.ServeCompletes | cart/views.py:177-186 | when every line is served, the cart becomes ordered and each book's stock falls by its demand |
| CartViews.ServeStops | cart/views.py:179-182 | on a shortage no cart changes; the error names the short book and its remaining stock, and earlier lines stay served |
| CartViews.Checkout | cart/views.py:169-186 | refuses an ordered cart if and only if it is ordered and an unordered cart if and only if it is empty, changing nothing in both cases; otherwise serves the lines |
| CartViews.OrderCart | cart/views.py:162-200 | never answers "already ordered"; answers "empty" if and only if the active cart has no line, and then nothing but the cart fetch happens; on success it flips exactly that cart to ordered and lowers each book by what the cart's lines ask of it; on an error no cart changes; on a shortage the error names the first short line's book and its stock, and every book stays lowered by what the lines before that one ask |
| CartViews.CartLinesDistinctBooks | cart/views.py:90 | the lines of one cart name pairwise different books |
| CartViews.ServeTakesEachLine | cart/views.py:177-184 | a completed walk lowers each line's book stock by exactly that line's quantity |
| CartViews.ServeSparesOtherBooks | cart/views.py:177-184 | a completed walk leaves alone every book that no line names |
| CartViews.CheckoutDecrementsExactly | cart/views.py:162-186 | a successful checkout lowers each line's book by the line's quantity and leaves alone every book no line names |
| CartViews.OrderCartKeepsValid | cart/views.py:162-186 | checkout keeps every invariant |
| CartViews.CheckoutKeepsValid | cart/views.py:177-186 | checking out a given cart keeps every invariant |
| CartViews.OrderCartKeepsConsistent | cart/views.py:162-186 | checkout keeps every cart's totals equal to its sums |
| CartViews.CheckoutKeepsConsistent | cart/views.py:185-186 | flipping the ordered flag and changing stock touch no line and no total |
| CartViews.DeleteCart | cart/views.py:211-234 | always succeeds; removes exactly the active cart and its lines; afterwards the caller has no unordered cart |
| CartViews.DeleteCartKeepsInvariants | cart/views.py:216-220 | deleting the cart keeps every invariant and the other carts' matching totals |
| BookViews.ReplaceIsPatch | book/views.py:78-80 | a full update is the partial update that supplies every required field and the optional fields the draft has; applying it twice is applying it once |
| BookViews.PatchLaws | book/views.py:121-124 | a patch that supplies nothing keeps the book; applying a patch twice is applying it once |
| BookViews.NewBookIsBlankReplace | book/views.py:35-37 | creating a book is a full update of a blank book owned by the caller, so a new book gets a null description and zero stock unless the draft gives them |
| BookViews.Snapshot | book/views.py:22 | one evaluation of `Book.objects.all()` holds exactly the books, in strictly ascending key order |
| BookViews.List | book/views.py:13-24 | always succeeds and changes nothing in the database; the first listing evaluates the catalog and stores the result in the class-level queryset's cache; every later listing answers with that cached result |
| Api.ListingStaysCached | book/views.py:13-24 | once the catalog has been listed, no run of requests changes the cache, and a listing after any run answers with the first listing |
| BookViews.Retrieve | book/views.py:41-70 | shows the book if and only if the key exists, otherwise the lookup error; nothing changes |
| BookViews.Create | book/views.py:26-40 | a non-superuser is refused and nothing changes; a name already in use is refused; otherwise exactly one book is added under a fresh key, owned by the caller |
| BookViews.Save | book/views.py:74-80 | the gate comes before the lookup; success if and only if a superuser names an existing book and the new name is free; only that book changes |
| BookViews.Update | book/views.py:72-113 | the gate comes before the lookup; on success only that book changes, by a full replacement |
| BookViews.PartialUpdate | book/views.py:115-153 | the gate comes before the lookup; on success only that book changes, by the patch |
| BookViews.Destroy | book/views.py:155-182 | the gate comes before the lookup; success if and only if a superuser names an existing book; it removes exactly that book and its lines; every other book and line keeps its value; carts are untouched |
| BookViews.GateBeforeLookup | book/views.py:75-77 | a non-superuser gets the permission error on every write, for any key, existing or not, and for any body; nothing changes |
| BookViews.FullPatchIsUpdate | book/views.py:72-124 | a partial update that supplies every required field and the draft's optional ones answers and changes the store as the full update does, for any caller and any key |
| BookViews.EmptyPatchKeepsBook | book/views.py:120-124 | an empty patch changes nothing, and it succeeds exactly when a superuser names an existing book |
| BookViews.CreateAddsOne | book/views.py:35-37 | a successful create adds exactly one key to the catalog |
| BookViews.SaveKeepsValid | book/models.py:5 | saving a book under a name no other book carries keeps names unique |
| BookViews.CreateKeepsValid | book/models.py:5 | `create` keeps every invariant, in particular unique names |
| BookViews.UpdatesKeepValid | book/models.py:5 | `update` and `partial_update` keep every invariant |
| BookViews.DestroyKeepsValid | book/views.py:160 | deleting a book keeps every invariant |
| Api.Step | cart/views.py:14-15 | every handler keeps the store well formed and never reuses a key; only a listing fills the catalog cache, and a filled cache is never replaced |
| Api.StepKeepsValid | cart/views.py:17-234 | every request, cart or catalog, keeps every invariant |
| Api.StepKeepsConsistent | cart/views.py:98-99 | every request except removing one line and deleting a book keeps every cart's totals equal to its sums |
| Api.ReadsChangeNothing | book/views.py:18-70 | reading the catalog changes no table; a listing changes nothing at all once the cache is filled; showing the cart at most creates the caller's empty cart |
| Api.CatalogWritesNeedSuperuser | book/views.py:31-32 | every catalog write by a non-superuser is refused with the permission error, and nothing changes |
| Api.CatalogLeavesCarts | book/views.py:12-182 | catalog requests never touch a cart record |
| Api.CartRequestsLeaveCatalog | cart/views.py:183-184 | cart requests never touch the catalog, except that checkout changes stock figures |
| Api.OrderedCartIsFinal | cart/views.py:22 | once ordered, a cart and its lines are never changed by any request other than a book deletion |
| Api.CreateSparesOtherCarts | cart/views.py:88-100 | adding to the caller's cart leaves every other cart and its lines as they were |
| Api.DestroySparesOtherCarts | cart/views.py:125-140 | removing lines leaves every other cart and its lines as they were |
| Api.OrderSparesOtherCarts | cart/views.py:167-186 | checkout leaves every other cart and its lines as they were |
| Api.DeleteSparesOtherCarts | cart/views.py:216-220 | deleting the caller's cart leaves every other cart and its lines as they were |
| Api.RunKeepsValid | cart/views.py:17-234 | after any sequence of requests from a valid store, in particular the empty one, the store is still valid |
| Api.RunKeepsConsistent | cart/views.py:98-99 | totals stay equal to the sums through any run that neither removes a single line nor deletes a book |
| Api.RunKeepsOrderedCart | cart/views.py:185-186 | an ordered cart stays as it is through any run without a book deletion |
| Findings.RemoveItemDoublesPrice | cart/views.py:134 | the code as written: removing line 5 of the small store leaves a price total of 4000, while the remaining subtotal is 2000, so the totals no longer match |
| Findings.RemoveLineIntended | cart/views.py:133-134 | the corrected removal deletes exactly the line and leaves totals equal to the sums |
| Findings.DestroyIntended | cart/views.py:120-151 | the corrected `destroy` answers as the original and removes the same lines |
| Findings.RemoveLineIntendedKeepsConsistent | cart/views.py:133-134 | the corrected removal keeps every cart's totals equal to its sums |
| Findings.DestroyIntendedKeepsConsistent | cart/views.py:127-140 | the corrected `destroy` keeps every cart's totals equal to its sums, whatever it removes |
| Findings.DestroyIntendedLowersByLine | cart/views.py:133-134 | the corrected removal lowers the price total by the removed line's subtotal and the quantity total by its quantity |
| Findings.CheckoutLeavesPartialDecrement | cart/views.py:177-184 | the code as written, on the small store: checkout fails on book "B", but book "A" stays decremented from 10 to 8 |
| Findings.OrderCartAtomic | cart/views.py:162-186 | the corrected checkout answers as the original; on success its store equals the original's; on failure only the cart fetch remains |
| Findings.AtomicCheckoutFailureKeepsStock | cart/views.py:179-182 | with the corrected checkout, a failed order changes no stock and no line |
| Findings.AtomicCheckoutOnShop | cart/views.py:179-182 | the corrected checkout on the small store fails and leaves the store unchanged |
| Findings.ListMissesNewBook | book/views.py:22 | the code as written: after a first listing, a superuser creates a book under a fresh name; the book is in the catalog, but the second listing equals the first and lacks it |
| Findings.ListIntended | book/views.py:18-24 | the corrected listing changes nothing and holds exactly the books in the catalog at that moment |
| Findings.ListIntendedSeesCreate | book/views.py:18-40 | with the corrected listing, a book a superuser just created is listed |
| Findings.StepIntended | cart/views.py:120-200 | the dispatcher with the three corrections answers every request other than a listing as the original; a listing changes nothing |
| Findings.StepIntendedKeepsConsistent | cart/views.py:98-99 | with the corrections, every request except deleting a book keeps every cart's totals equal to its sums |

## Left out

- HTTP envelopes, status codes and serializer output are not modelled. An `Outcome` names the reply or the error, and `Outcomes.Message` gives its text.
- A line key that is not in the active cart is `ItemNotFound`. In the code the `NotFound` raised inside `destroy` falls into the generic arm, which answers 500. The status is not modelled.
- A missing book in `retrieve`, `update`, `partial_update` and `destroy` is `NoSuchBook`. The status, 404 or the generic arm's 400, is not modelled.
- The generic `except Exception` arms are not modelled beyond the two cases above. They turn unexpected faults such as database errors into 500 or 400 answers, and the model has no such faults.
- Authentication is left out: every handler runs for an authenticated `User`. User registration and login views are left out.
- The catalog cache belongs to one server process. A deployment with several worker processes has one cache per process, and which process serves a request is not modelled: the model has a single process.
- Transactions, row locking and concurrency are left out. Requests run one at a time, each to completion, so the atomic block in `create` has nothing to protect against.
- `MultipleObjectsReturned` from `get_or_create` is left out. The invariant `OneActiveCart` rules out the case, and the lookup returns the lowest key.
- Each table has its own key sequence in Django. The model uses one shared counter, since only key freshness matters.
- Queries without an explicit ordering are taken in ascending key order.
- Book serializer validation is left out, except name uniqueness. This covers required fields, types, `max_length` and non-negative integers. A `BookDraft` or `BookPatch` already holds well-typed values.
- The upper bounds of `PositiveIntegerField` are left out. Integers are unbounded.
- The cart serializer and the response data it renders are left out.
- A `book_id` that `int()` cannot convert is `BookKeyNotANumber`. In the code the lookup raises `ValueError`, which no arm catches, so the answer is a 500. Django's exact message, which quotes the key, is not modelled. The detail of "Book not found." quotes the key as sent; the model keeps the converted number.
- `ToInt` covers integers and text only. Floats and booleans sent as `quantity` are not modelled.
- Values.ParseInt: accepts only an optional sign and ASCII digits between white space. Python's `int()` also accepts `_` separators and non-ASCII digits, and its set of white space is wider than `IsSpace`. Its default limit of 4300 digits is modelled; a limit changed through `sys.set_int_max_str_digits` is not.
- The same digit limit makes Python's rendering of an integer of more than 4300 digits raise `ValueError`. `Outcomes.Message` renders a stock figure of any length, since the upper bounds of the integer columns are left out.
- The URL key of `destroy` is an `Option<int>`. A non-numeric key is not modelled.
- Deleting a user is modelled as `Models.DeleteUserCascade` and proved to keep the invariant, but no handler in this model deletes a user.
- Api.Step: its own contract states only well-formedness, the growing counter and how the catalog cache may change. What each request does is stated by the handlers' contracts and the `Api` lemmas.

## Findings

| source | as written | input that shows it | evidently intended | confidence | as-written member | corrected member |
|---|---|---|---|---|---|---|
| cart/views.py:134 | after one line is removed, `total_price` is set to the sum of `quantity * price`, but each line's `price` already holds `book.price * quantity` | cart 3 holds line 4 (2 of book "A", subtotal 2000) and line 5 (1 of book "B", subtotal 500); removing line 5 sets `total_price` to 4000 although the only remaining subtotal is 2000 | `total_price` is the sum of the line subtotals, as `create` computes it at line 99 | not executed | Findings.RemoveItemDoublesPrice | Findings.DestroyIntendedKeepsConsistent |
| cart/views.py:177-184 | the checkout loop saves each book's decrement at once, outside any transaction; a later line short of stock returns an error, but the earlier decrements stay saved | the same cart with book "A" at stock 10 and book "B" at stock 0; `order_cart` answers "Not enough stock for B. Available stock: 0", and the stock of "A" is now 8 while the cart is still unordered | a checkout either succeeds completely or changes no stock | not executed | Findings.CheckoutLeavesPartialDecrement | Findings.AtomicCheckoutFailureKeepsStock |
| book/views.py:22 | `list` serializes the queryset stored on the class, whose result cache is filled at the first listing and reused afterwards | list the catalog; a superuser creates book "N" under a fresh name; list again: the second listing equals the first and lacks "N" | each listing shows the books in the catalog at that moment, as `get_queryset()` gives the other handlers | not executed | Findings.ListMissesNewBook | Findings.ListIntendedSeesCreate |

=== FILE: api.dfy ===
/** The two view sets behind one dispatcher: an authenticated caller sends one
    request, the matching handler runs to completion, and the store moves on.
    Properties that hold across handlers live here. */
module Api {
  import opened Values
  import opened Models
  import opened Outcomes
  import C = CartViews
  import B = BookViews

  datatype Request =
    | ShowCart                                        // GET carts
    | AddToCart(bookId: Field, quantity: Field)       // POST carts
    | RemoveItems(pk: Option<int>)                    // DELETE carts[/pk]
    | OrderCart                                       // PATCH carts/order_cart
    | DeleteCart                                      // DELETE carts/delete_cart
    | ListBooks                                       // GET books
    | GetBook(id: int)                                // GET books/id
    | CreateBook(draft: B.BookDraft)                  // POST books
    | UpdateBook(id: int, draft: B.BookDraft)         // PUT books/id
    | PatchBook(id: int, patch: B.BookPatch)          // PATCH books/id
    | DeleteBook(id: int)                             // DELETE books/id

  /** The requests that write to the catalog. */
  predicate CatalogWrite(req: Request) {
    req.CreateBook? || req.UpdateBook? || req.PatchBook? || req.DeleteBook?
  }

  /** The requests of the cart view set. */
  predicate IsCartRequest(req: Request) {
    req.ShowCart? || req.AddToCart? || req.RemoveItems? || req.OrderCart? || req.DeleteCart?
  }

  /** One request handled for caller `u`. Only listing the catalog touches
      the listing cache, and only while it is still empty. */
  function Step(s: Store, u: User, req: Request): (r: (Store, Outcome))
    requires WellFormed(s)
    ensures WellFormed(r.0)
    ensures r.0.nextId >= s.nextId
    ensures !req.ListBooks? ==> r.0.catalogCache == s.catalogCache
    ensures s.catalogCache.Some? ==> r.0.catalogCache == s.catalogCache
    ensures req.ListBooks? ==> r.0.catalogCache.Some?
  {
    match req
    case ShowCart => C.List(s, u)
    case AddToCart(b, q) => C.Create(s, u, b, q)
    case RemoveItems(pk) => C.Destroy(s, u, pk)
    case OrderCart => C.OrderCart(s, u)
    case DeleteCart => C.DeleteCart(s, u)
    case ListBooks => B.List(s, u)
    case GetBook(id) => B.Retrieve(s, u, id)
    case CreateBook(d) => B.Create(s, u, d)
    case UpdateBook(id, d) => B.Update(s, u, id, d)
    case PatchBook(id, p) => B.PartialUpdate(s, u, id, p)
    case DeleteBook(id) => B.Destroy(s, u, id)
  }

  /** Every request keeps the store invariant: keys and links, one unordered
      cart per user, one line per (cart, book), unique book names. */
  lemma StepKeepsValid(s: Store, u: User, req: Request)
    requires Valid(s)
    ensures Valid(Step(s, u, req).0)
  {
    match req
    case ShowCart => C.GetUserCartKeepsInvariants(s, u);
    case AddToCart(b, q) => C.CreateKeepsInvariants(s, u, b, q);
    case RemoveItems(pk) =>
      if pk.Some? { C.DestroyItemKeepsValid(s, u, pk.value); } else { C.ClearCartKeepsInvariants(s, u); }
    case OrderCart => C.OrderCartKeepsValid(s, u);
    case DeleteCart => C.DeleteCartKeepsInvariants(s, u);
    case ListBooks =>
    case GetBook(id) =>
    case CreateBook(d) => B.CreateKeepsValid(s, u, d);
    case UpdateBook(id, d) => B.UpdatesKeepValid(s, u, id, d, B.BookPatch(None, None, None, None, None));
    case PatchBook(id, p) => B.UpdatesKeepValid(s, u, id, B.BookDraft([], [], None, 0, None), p);
    case DeleteBook(id) => B.DestroyKeepsValid(s, u, id);
  }

  /** The requests after which every cart's totals still equal the sums over
      its lines. Removing one line does not qualify (its price total is a
      different sum) and neither does deleting a book (no total is
      recomputed). */
  predicate KeepsTotals(req: Request) {
    !(req.RemoveItems? && req.pk.Some?) && !req.DeleteBook?
  }

  /** Every request that qualifies under `KeepsTotals` keeps every cart's
      totals equal to its sums. */
  lemma StepKeepsConsistent(s: Store, u: User, req: Request)
    requires Valid(s) && Consistent(s) && KeepsTotals(req)
    ensures Consistent(Step(s, u, req).0)
  {
    match req
    case ShowCart => C.GetUserCartKeepsInvariants(s, u);
    case AddToCart(b, q) => C.CreateKeepsInvariants(s, u, b, q);
    case RemoveItems(pk) => C.ClearCartKeepsInvariants(s, u);
    case OrderCart => C.OrderCartKeepsConsistent(s, u);
    case DeleteCart => C.DeleteCartKeepsInvariants(s, u);
    case ListBooks => CatalogKeepsTotals(s, Step(s, u, req).0);
    case GetBook(id) =>
    case CreateBook(d) => CatalogKeepsTotals(s, Step(s, u, req).0);
    case UpdateBook(id, d) => CatalogKeepsTotals(s, Step(s, u, req).0);
    case PatchBook(id, p) => CatalogKeepsTotals(s, Step(s, u, req).0);
  }

  /** Totals depend on carts and lines only; the counter moving on adds no
      line. */
  lemma CatalogKeepsTotals(s: Store, t: Store)
    requires Consistent(s) && t.carts == s.carts && t.items == s.items && t.nextId >= s.nextId
    requires forall id :: id in s.items ==> id < s.nextId
    ensures Consistent(t)
  {
    forall c | c in t.carts ensures TotalsMatch(t, c) {
      assert TotalsMatch(s, c);
      forall m: Measure ensures CartSum(t.items, c, t.nextId, m) == CartSum(s.items, c, s.nextId, m) {
        CartSumBeyond(s.items, c, s.nextId, t.nextId, m);
      }
    }
  }

  /** Reading the catalog changes no table (a first listing fills the listing
      cache, a later one changes nothing at all); showing the cart changes
      nothing but, at most, the creation of the caller's empty cart. */
  lemma ReadsChangeNothing(s: Store, u: User, id: int)
    requires WellFormed(s)
    ensures var t := Step(s, u, ListBooks).0;
            t.books == s.books && t.carts == s.carts && t.items == s.items && t.nextId == s.nextId
    ensures s.catalogCache.Some? ==> Step(s, u, ListBooks).0 == s
    ensures Step(s, u, GetBook(id)).0 == s
    ensures Step(s, u, ShowCart).0 == C.GetUserCart(s, u).0
    ensures (exists c :: IsActive(s.carts, u.id, c)) ==> Step(s, u, ShowCart).0 == s
  {
  }

  /** A caller who is not a superuser gets the permission error on every
      catalog write and the store does not change. */
  lemma CatalogWritesNeedSuperuser(s: Store, u: User, req: Request)
    requires WellFormed(s) && !u.isSuperuser && CatalogWrite(req)
    ensures Step(s, u, req) == (s, Err(Forbidden))
  {
    B.GateBeforeLookup(s, u, if req.CreateBook? then 0 else req.id,
                       if req.CreateBook? || req.UpdateBook? then req.draft else B.BookDraft([], [], None, 0, None),
                       if req.PatchBook? then req.patch else B.BookPatch(None, None, None, None, None));
  }

  /** Catalog requests never touch a cart record. */
  lemma CatalogLeavesCarts(s: Store, u: User, req: Request)
    requires WellFormed(s) && !IsCartRequest(req)
    ensures Step(s, u, req).0.carts == s.carts
  {
  }

  /** Cart requests never touch the catalog, except that a checkout lowers
      stock figures. */
  lemma CartRequestsLeaveCatalog(s: Store, u: User, req: Request)
    requires WellFormed(s) && IsCartRequest(req)
    ensures !req.OrderCart? ==> Step(s, u, req).0.books == s.books
    ensures req.OrderCart? ==> C.StockOnly(s.books, Step(s, u, req).0.books)
  {
  }

  // ---------------------------------------------------------------------------
  // An ordered cart is final

  /** Cart `c` and its lines exactly as they are in `s`. */
  ghost predicate Frozen(s: Store, t: Store, c: Id)
    requires c in s.carts
  {
    && c in t.carts && t.carts[c] == s.carts[c]
    && (forall i :: InCart(s.items, c, i) ==> i in t.items && t.items[i] == s.items[i])
    && (forall i :: InCart(t.items, c, i) ==> InCart(s.items, c, i))
  }

  /** Every handler of the cart view set goes through the caller's unordered
      cart, so an ordered cart and its lines are never changed again; only
      deleting a book can take lines away from it, by cascade. */
  lemma OrderedCartIsFinal(s: Store, u: User, req: Request, c: Id)
    requires Valid(s) && c in s.carts && s.carts[c].isOrdered && !req.DeleteBook?
    ensures Frozen(s, Step(s, u, req).0, c)
  {
    var (s1, cart) := C.GetUserCart(s, u);
    assert cart != c;
    match req
    case ShowCart =>
    case AddToCart(b, q) => CreateSparesOtherCarts(s, u, b, q, c);
    case RemoveItems(pk) => DestroySparesOtherCarts(s, u, pk, c);
    case OrderCart => OrderSparesOtherCarts(s, u, c);
    case DeleteCart => DeleteSparesOtherCarts(s, u, c);
    case ListBooks =>
    case GetBook(id) =>
    case CreateBook(d) =>
    case UpdateBook(id, d) =>
    case PatchBook(id, p) =>
  }

  /** Adding to the caller's cart leaves every other cart and its lines alone. */
  lemma CreateSparesOtherCarts(s: Store, u: User, bookId: Field, quantity: Field, c: Id)
    requires WellFormed(s) && c in s.carts && c != C.GetUserCart(s, u).1
    ensures Frozen(s, C.Create(s, u, bookId, quantity).0, c)
  {
    var (s1, cart) := C.GetUserCart(s, u);
    var r := C.Create(s, u, bookId, quantity);
    if r.1.Ok? {
      C.UpsertSparesOtherCarts(s1, cart, ToInt(bookId).value, ToInt(quantity).value, c);
    }
  }

  /** Removing lines from the caller's cart leaves every other cart and its
      lines alone. */
  lemma DestroySparesOtherCarts(s: Store, u: User, pk: Option<int>, c: Id)
    requires WellFormed(s) && c in s.carts && c != C.GetUserCart(s, u).1
    ensures Frozen(s, C.Destroy(s, u, pk).0, c)
  {
    var (s1, cart) := C.GetUserCart(s, u);
    var r := C.Destroy(s, u, pk).0;
    assert Frozen(s, s1, c);
    if pk.None? {
      assert r == C.ClearCart(s1, cart);
      ClearSparesOtherCarts(s1, cart, c);
    } else if C.HoldsLine(s1.items, cart, pk.value) {
      assert r == C.RemoveLine(s1, cart, pk.value);
      RemoveLineSparesOtherCarts(s1, cart, pk.value, c);
    }
    FrozenChain(s, s1, r, c);
  }

  /** A cart left alone by two changes in a row is left alone by both. */
  lemma FrozenChain(a: Store, b: Store, t: Store, c: Id)
    requires c in a.carts && Frozen(a, b, c) && Frozen(b, t, c)
    ensures Frozen(a, t, c)
  {
  }

  /** Clearing one cart leaves every other cart and its lines alone. */
  lemma ClearSparesOtherCarts(s: Store, cart: Id, c: Id)
    requires WellFormed(s) && cart in s.carts && c in s.carts && c != cart
    ensures Frozen(s, C.ClearCart(s, cart), c)
  {
  }

  /** Removing a line of one cart leaves every other cart and its lines alone. */
  lemma RemoveLineSparesOtherCarts(s: Store, cart: Id, id: Id, c: Id)
    requires WellFormed(s) && cart in s.carts && InCart(s.items, cart, id) && c in s.carts && c != cart
    ensures Frozen(s, C.RemoveLine(s, cart, id), c)
  {
  }

  /** Checking out the caller's cart leaves every other cart and its lines
      alone. */
  lemma OrderSparesOtherCarts(s: Store, u: User, c: Id)
    requires WellFormed(s) && c in s.carts && c != C.GetUserCart(s, u).1
    ensures Frozen(s, C.OrderCart(s, u).0, c)
  {
  }

  /** Deleting the caller's cart leaves every other cart and its lines alone. */
  lemma DeleteSparesOtherCarts(s: Store, u: User, c: Id)
    requires WellFormed(s) && c in s.carts && c != C.GetUserCart(s, u).1
    ensures Frozen(s, C.DeleteCart(s, u).0, c)
  {
    var (s1, cart) := C.GetUserCart(s, u);
    var r := C.DeleteCart(s, u).0;
    assert Frozen(s, s1, c);
    assert r == DeleteCartCascade(s1, cart);
    CascadeSparesOtherCarts(s1, cart, c);
    FrozenChain(s, s1, r, c);
  }

  /** Deleting one cart leaves every other cart and its lines alone. */
  lemma CascadeSparesOtherCarts(s: Store, cart: Id, c: Id)
    requires WellFormed(s) && cart in s.carts && c in s.carts && c != cart
    ensures Frozen(s, DeleteCartCascade(s, cart), c)
  {
  }

  // ---------------------------------------------------------------------------
  // Runs of requests

  /** A sequence of requests, each from its own caller, handled in order. */
  function Run(s: Store, reqs: seq<(User, Request)>): (r: Store)
    requires WellFormed(s)
    ensures WellFormed(r)
    ensures r.nextId >= s.nextId
    decreases |reqs|
  {
    if reqs == [] then s else Run(Step(s, reqs[0].0, reqs[0].1).0, reqs[1..])
  }

  /** The invariant holds after any run from a store that satisfies it, in
      particular from the empty store. */
  lemma {:induction false} RunKeepsValid(s: Store, reqs: seq<(User, Request)>)
    requires Valid(s)
    ensures Valid(Run(s, reqs))
    decreases |reqs|
  {
    if reqs != [] {
      StepKeepsValid(s, reqs[0].0, reqs[0].1);
      RunKeepsValid(Step(s, reqs[0].0, reqs[0].1).0, reqs[1..]);
    }
  }

  /** Totals stay equal to the sums for any run that neither removes a single
      line nor deletes a book. */
  lemma {:induction false} RunKeepsConsistent(s: Store, reqs: seq<(User, Request)>)
    requires Valid(s) && Consistent(s)
    requires forall k :: 0 <= k < |reqs| ==> KeepsTotals(reqs[k].1)
    ensures Consistent(Run(s, reqs))
    decreases |reqs|
  {
    if reqs != [] {
      StepKeepsValid(s, reqs[0].0, reqs[0].1);
      StepKeepsConsistent(s, reqs[0].0, reqs[0].1);
      RunKeepsConsistent(Step(s, reqs[0].0, reqs[0].1).0, reqs[1..]);
    }
  }

  /** Once the catalog was listed, no request changes the cached listing, so
      a listing after any run of requests answers with that first listing. */
  lemma {:induction false} ListingStaysCached(s: Store, reqs: seq<(User, Request)>, u: User)
    requires WellFormed(s) && s.catalogCache.Some?
    ensures Run(s, reqs).catalogCache == s.catalogCache
    ensures Step(Run(s, reqs), u, ListBooks).1 == Ok(Catalog(s.catalogCache.value))
    decreases |reqs|
  {
    if reqs != [] {
      ListingStaysCached(Step(s, reqs[0].0, reqs[0].1).0, reqs[1..], u);
    }
  }

  /** Once ordered, a cart stays as it is through any run without a book
      deletion. */
  lemma {:induction false} RunKeepsOrderedCart(s: Store, reqs: seq<(User, Request)>, c: Id)
    requires Valid(s) && c in s.carts && s.carts[c].isOrdered
    requires forall k :: 0 <= k < |reqs| ==> !reqs[k].1.DeleteBook?
    ensures Frozen(s, Run(s, reqs), c)
    decreases |reqs|
  {
    if reqs != [] {
      var t := Step(s, reqs[0].0, reqs[0].1).0;
      OrderedCartIsFinal(s, reqs[0].0, reqs[0].1, c);
      StepKeepsValid(s, reqs[0].0, reqs[0].1);
      RunKeepsOrderedCart(t, reqs[1..], c);
    }
  }
}

=== FILE: book_views.dfy ===
/** The catalog handlers of `BookViewSet`. Reading is open to every
    authenticated caller; every handler that writes is refused to a caller who
    is not a superuser, and that refusal comes before the book is looked up.
    Field validation by the book serializer is taken as done: a draft or a
    patch here already holds well-typed values. The one serializer check the
    model keeps is the uniqueness of `name`, because the store relies on it. */
module BookViews {
  import opened Values
  import opened Models
  import opened Outcomes

  /** The body of a create or a full update. `name`, `author` and `price` are
      required; `description` may be absent (`None`) or null (`Some(None)`);
      `stock` may be absent. */
  datatype BookDraft = BookDraft(name: string, author: string, description: Option<Option<string>>,
                                 price: nat, stock: Option<nat>)

  /** The body of a partial update: any field may be absent. */
  datatype BookPatch = BookPatch(name: Option<string>, author: Option<string>,
                                 description: Option<Option<string>>,
                                 price: Option<nat>, stock: Option<nat>)

  /** Some book other than `except` already carries `name`. */
  predicate NameClash(books: map<Id, Book>, name: string, except: int) {
    exists j :: j in books && j != except && books[j].name == name
  }

  /** The supplied value, or `default` when the field is absent. */
  function OrElse<T>(o: Option<T>, default: T): (r: T)
    ensures o.Some? ==> r == o.value
    ensures o.None? ==> r == default
  {
    if o.Some? then o.value else default
  }

  /** The book a create makes from a draft: absent description is null,
      absent stock is 0, the owner is the caller. */
  function NewBook(d: BookDraft, owner: Id): (b: Book)
    ensures b.name == d.name && b.author == d.author && b.price == d.price && b.owner == owner
    ensures b.description == OrElse(d.description, None)
    ensures b.stock == OrElse(d.stock, 0)
  {
    Book(d.name, d.author, OrElse(d.description, None), d.price, OrElse(d.stock, 0), owner)
  }

  /** A full update: the required fields are replaced, the optional ones are
      replaced when supplied and kept otherwise; the owner never changes. */
  function Replace(prev: Book, d: BookDraft): (b: Book)
    ensures b.name == d.name && b.author == d.author && b.price == d.price && b.owner == prev.owner
    ensures b.description == OrElse(d.description, prev.description)
    ensures b.stock == OrElse(d.stock, prev.stock)
  {
    Book(d.name, d.author, OrElse(d.description, prev.description), d.price, OrElse(d.stock, prev.stock), prev.owner)
  }

  /** A partial update: every supplied field is replaced, every other kept. */
  function Patch(prev: Book, p: BookPatch): (b: Book)
    ensures b.name == OrElse(p.name, prev.name) && b.author == OrElse(p.author, prev.author)
    ensures b.description == OrElse(p.description, prev.description)
    ensures b.price == OrElse(p.price, prev.price) && b.stock == OrElse(p.stock, prev.stock)
    ensures b.owner == prev.owner
  {
    Book(OrElse(p.name, prev.name), OrElse(p.author, prev.author), OrElse(p.description, prev.description),
         OrElse(p.price, prev.price), OrElse(p.stock, prev.stock), prev.owner)
  }

  // ---------------------------------------------------------------------------
  // list and retrieve

  /** What a fresh evaluation of `Book.objects.all()` reads: every book, in
      key order. */
  function Snapshot(s: Store): (l: Listing)
    ensures l.books == s.books
    ensures forall id: nat :: id in l.ids <==> id in s.books && id < s.nextId
    ensures forall i, j :: 0 <= i < j < |l.ids| ==> l.ids[i] < l.ids[j]
  {
    BookIdsExact(s.books, s.nextId);
    Listing(BookIdsBelow(s.books, s.nextId), s.books)
  }

  /** GET: `list` serialises `self.queryset`, the class attribute
      `Book.objects.all()`, without cloning it. The first listing in the
      process evaluates that queryset and fills its result cache; every later
      listing answers from the cache, whatever the catalog holds by then. */
  function List(s: Store, u: User): (r: (Store, Outcome))
    ensures r.1.Ok? && r.1.reply.Catalog?
    ensures r.0 == s.(catalogCache := Some(r.1.reply.listing))
    ensures s.catalogCache.Some? ==> r.0 == s && r.1.reply.listing == s.catalogCache.value
    ensures s.catalogCache.None? ==> r.1.reply.listing == Snapshot(s)
  {
    match s.catalogCache
    case Some(l) => (s, Ok(Catalog(l)))
    case None => (s.(catalogCache := Some(Snapshot(s))), Ok(Catalog(Snapshot(s))))
  }

  /** GET by key. Nothing changes; an unknown key is the lookup failure. */
  function Retrieve(s: Store, u: User, id: int): (r: (Store, Outcome))
    ensures r.0 == s
    ensures r.1.Ok? <==> id >= 0 && id in s.books
    ensures r.1.Ok? ==> r.1.reply == BookShown(id, s.books[id])
    ensures r.1.Err? ==> r.1.error == NoSuchBook
  {
    if id >= 0 && id in s.books then (s, Ok(BookShown(id, s.books[id]))) else (s, Err(NoSuchBook))
  }

  // ---------------------------------------------------------------------------
  // create

  /** POST: a superuser's draft becomes a new book under the next key, owned
      by the caller. Anyone else is refused before the body is read; a name
      already in the catalog is refused by the serializer. */
  function Create(s: Store, u: User, d: BookDraft): (r: (Store, Outcome))
    requires WellFormed(s)
    ensures WellFormed(r.0)
    ensures !u.isSuperuser ==> r == (s, Err(Forbidden))
    ensures u.isSuperuser && NameClash(s.books, d.name, -1) ==> r == (s, Err(NameTaken(d.name)))
    ensures r.1.Ok? <==> u.isSuperuser && !NameClash(s.books, d.name, -1)
    ensures r.1.Ok? ==> && r.1.reply == BookCreated(s.nextId)
                        && s.nextId !in s.books
                        && r.0.books == s.books[s.nextId := NewBook(d, u.id)]
                        && r.0.books[s.nextId].owner == u.id
                        && r.0.carts == s.carts && r.0.items == s.items
                        && r.0.nextId == s.nextId + 1 && r.0.catalogCache == s.catalogCache
  {
    if !u.isSuperuser then (s, Err(Forbidden))
    else if NameClash(s.books, d.name, -1) then (s, Err(NameTaken(d.name)))
    else (s.(books := s.books[s.nextId := NewBook(d, u.id)], nextId := s.nextId + 1), Ok(BookCreated(s.nextId)))
  }

  // ---------------------------------------------------------------------------
  // update, partial_update

  /** The steps shared by `update` and `partial_update` once the new field
      values are known: the superuser gate, then the lookup, then the name
      check, then the save. */
  function Save(s: Store, u: User, id: int, edit: Book -> Book): (r: (Store, Outcome))
    ensures !u.isSuperuser ==> r == (s, Err(Forbidden))
    ensures u.isSuperuser && !(id >= 0 && id in s.books) ==> r == (s, Err(NoSuchBook))
    ensures r.1.Ok? <==> u.isSuperuser && id >= 0 && id in s.books && !NameClash(s.books, edit(s.books[id]).name, id)
    ensures r.0.books.Keys == s.books.Keys && r.0.carts == s.carts && r.0.items == s.items && r.0.nextId == s.nextId
    ensures r.1.Err? ==> r.0 == s
    ensures r.1.Ok? ==> && r.1.reply == BookUpdated(id)
                        && r.0 == s.(books := s.books[id := edit(s.books[id])])
  {
    if !u.isSuperuser then (s, Err(Forbidden))
    else if !(id >= 0 && id in s.books) then (s, Err(NoSuchBook))
    else
      var b := edit(s.books[id]);
      if NameClash(s.books, b.name, id) then (s, Err(NameTaken(b.name)))
      else (s.(books := s.books[id := b]), Ok(BookUpdated(id)))
  }

  /** PUT: a full update of the book at `id`. */
  function Update(s: Store, u: User, id: int, d: BookDraft): (r: (Store, Outcome))
    ensures !u.isSuperuser ==> r == (s, Err(Forbidden))
    ensures u.isSuperuser && !(id >= 0 && id in s.books) ==> r == (s, Err(NoSuchBook))
    ensures r.0.books.Keys == s.books.Keys && r.0.carts == s.carts && r.0.items == s.items && r.0.nextId == s.nextId
    ensures r.1.Err? ==> r.0 == s
    ensures r.1.Ok? ==> && id >= 0 && id in s.books
                        && r.0 == s.(books := s.books[id := Replace(s.books[id], d)])
  {
    Save(s, u, id, prev => Replace(prev, d))
  }

  /** PATCH: a partial update of the book at `id`. */
  function PartialUpdate(s: Store, u: User, id: int, p: BookPatch): (r: (Store, Outcome))
    ensures !u.isSuperuser ==> r == (s, Err(Forbidden))
    ensures u.isSuperuser && !(id >= 0 && id in s.books) ==> r == (s, Err(NoSuchBook))
    ensures r.0.books.Keys == s.books.Keys && r.0.carts == s.carts && r.0.items == s.items && r.0.nextId == s.nextId
    ensures r.1.Err? ==> r.0 == s
    ensures r.1.Ok? ==> && id >= 0 && id in s.books
                        && r.0 == s.(books := s.books[id := Patch(s.books[id], p)])
  {
    Save(s, u, id, prev => Patch(prev, p))
  }

  // ---------------------------------------------------------------------------
  // destroy

  /** DELETE: the superuser gate, the lookup, then `book.delete()` with its
      cascade into cart items. No cart total is recomputed. */
  function Destroy(s: Store, u: User, id: int): (r: (Store, Outcome))
    requires WellFormed(s)
    ensures WellFormed(r.0)
    ensures !u.isSuperuser ==> r == (s, Err(Forbidden))
    ensures u.isSuperuser && !(id >= 0 && id in s.books) ==> r == (s, Err(NoSuchBook))
    ensures r.1.Ok? <==> u.isSuperuser && id >= 0 && id in s.books
    ensures r.1.Ok? ==> && r.1.reply == BookDeleted
                        && r.0.books.Keys == s.books.Keys - {id}
                        && (forall b :: b in r.0.books ==> r.0.books[b] == s.books[b])
                        && r.0.carts == s.carts && r.0.nextId == s.nextId
                        && r.0.catalogCache == s.catalogCache
                        && (forall i :: i in r.0.items <==> i in s.items && s.items[i].book != id)
                        && (forall i :: i in r.0.items ==> r.0.items[i] == s.items[i])
  {
    if !u.isSuperuser then (s, Err(Forbidden))
    else if !(id >= 0 && id in s.books) then (s, Err(NoSuchBook))
    else (DeleteBookCascade(s, id), Ok(BookDeleted))
  }

  // ---------------------------------------------------------------------------
  // Properties

  /** The gate comes first: a caller who is not a superuser is refused every
      catalog write, whatever the key (present or not) and whatever the body,
      and nothing changes. */
  lemma GateBeforeLookup(s: Store, u: User, id: int, d: BookDraft, p: BookPatch)
    requires WellFormed(s) && !u.isSuperuser
    ensures Create(s, u, d) == (s, Err(Forbidden))
    ensures Update(s, u, id, d) == (s, Err(Forbidden))
    ensures PartialUpdate(s, u, id, p) == (s, Err(Forbidden))
    ensures Destroy(s, u, id) == (s, Err(Forbidden))
    ensures Message(Forbidden) == SuperuserMessage
  {
  }

  /** The patch that carries a draft's values: the required fields always,
      the optional ones when the draft supplies them. */
  function DraftPatch(d: BookDraft): BookPatch {
    BookPatch(Some(d.name), Some(d.author), d.description, Some(d.price), d.stock)
  }

  /** A full update is the partial update that carries the same values, and
      repeating it changes nothing more. */
  lemma ReplaceIsPatch(b: Book, d: BookDraft)
    ensures Replace(b, d) == Patch(b, DraftPatch(d))
    ensures Replace(Replace(b, d), d) == Replace(b, d)
  {
  }

  /** A patch that supplies nothing keeps the book, and applying a patch
      twice is applying it once. */
  lemma PatchLaws(b: Book, p: BookPatch)
    ensures Patch(b, BookPatch(None, None, None, None, None)) == b
    ensures Patch(Patch(b, p), p) == Patch(b, p)
  {
  }

  /** A created book is a blank book of the caller's (no description, no
      stock) fully updated with the draft. */
  lemma NewBookIsBlankReplace(d: BookDraft, owner: Id)
    ensures NewBook(d, owner) == Replace(Book("", "", None, 0, 0, owner), d)
  {
  }

  /** A partial update that carries a draft's values is the full update with
      that draft. */
  lemma FullPatchIsUpdate(s: Store, u: User, id: int, d: BookDraft)
    ensures PartialUpdate(s, u, id, DraftPatch(d)) == Update(s, u, id, d)
  {
    if u.isSuperuser && id >= 0 && id in s.books {
      ReplaceIsPatch(s.books[id], d);
    }
  }

  /** A patch that supplies nothing leaves the book as it was. */
  lemma EmptyPatchKeepsBook(s: Store, u: User, id: int)
    requires UniqueNames(s)
    ensures var r := PartialUpdate(s, u, id, BookPatch(None, None, None, None, None));
            && r.0 == s
            && (r.1.Ok? <==> u.isSuperuser && id >= 0 && id in s.books)
  {
    var p := BookPatch(None, None, None, None, None);
    if u.isSuperuser && id >= 0 && id in s.books {
      assert Patch(s.books[id], p) == s.books[id];
      assert s.books[id := s.books[id]] == s.books;
      assert !NameClash(s.books, s.books[id].name, id);
    }
  }

  /** Creating a book adds exactly one book, under a key no book had. */
  lemma CreateAddsOne(s: Store, u: User, d: BookDraft)
    requires WellFormed(s)
    requires Create(s, u, d).1.Ok?
    ensures var r := Create(s, u, d).0;
            && r.books.Keys == s.books.Keys + {s.nextId}
            && |r.books| == |s.books| + 1
  {
    var r := Create(s, u, d).0;
    AddFresh(s.books, s.nextId, NewBook(d, u.id));
  }

  /** Storing under a key not in the map adds exactly that key. */
  lemma AddFresh(books: map<Id, Book>, id: Id, b: Book)
    requires id !in books
    ensures books[id := b].Keys == books.Keys + {id}
    ensures |books[id := b]| == |books| + 1
  {
    assert books[id := b].Keys == books.Keys + {id};
  }

  /** Saving a book whose name no other book carries keeps the invariant. */
  lemma SaveKeepsValid(s: Store, id: Id, b: Book)
    requires Valid(s) && id in s.books && !NameClash(s.books, b.name, id)
    ensures Valid(s.(books := s.books[id := b]))
  {
    var t := s.(books := s.books[id := b]);
    forall i, j | i in t.books && j in t.books && t.books[i].name == t.books[j].name
      ensures i == j
    {
      if i != id && j != id {
        assert s.books[i].name == s.books[j].name;
      }
    }
  }

  /** `create` keeps the store invariant, in particular unique names. */
  lemma CreateKeepsValid(s: Store, u: User, d: BookDraft)
    requires Valid(s)
    ensures Valid(Create(s, u, d).0)
  {
    var r := Create(s, u, d).0;
    if Create(s, u, d).1.Ok? {
      forall i, j | i in r.books && j in r.books && r.books[i].name == r.books[j].name
        ensures i == j
      {
        if i != s.nextId && j != s.nextId {
          assert s.books[i].name == s.books[j].name;
        }
      }
    }
  }

  /** `update` and `partial_update` keep the store invariant. */
  lemma UpdatesKeepValid(s: Store, u: User, id: int, d: BookDraft, p: BookPatch)
    requires Valid(s)
    ensures Valid(Update(s, u, id, d).0)
    ensures Valid(PartialUpdate(s, u, id, p).0)
  {
    if u.isSuperuser && id >= 0 && id in s.books {
      if !NameClash(s.books, Replace(s.books[id], d).name, id) {
        SaveKeepsValid(s, id, Replace(s.books[id], d));
      }
      if !NameClash(s.books, Patch(s.books[id], p).name, id) {
        SaveKeepsValid(s, id, Patch(s.books[id], p));
      }
    }
  }

  /** `destroy` keeps the store invariant. */
  lemma DestroyKeepsValid(s: Store, u: User, id: int)
    requires Valid(s)
    ensures Valid(Destroy(s, u, id).0)
  {
    if u.isSuperuser && id >= 0 && id in s.books {
      BookCascadeKeepsValid(s, id);
    }
  }
}

=== FILE: cart_views.dfy ===
/** The cart handlers of `CartViewSet`. Each handler is one sequential step
    from a store to a store and an outcome, for an authenticated caller. */
module CartViews {
  import opened Values
  import opened Models
  import opened Outcomes

  // ---------------------------------------------------------------------------
  // get_user_cart

  /** `Cart.objects.get_or_create(user=u, is_ordered=False)`: the caller's
      unordered cart, created with default fields when there is none. */
  function GetUserCart(s: Store, u: User): (r: (Store, Id))
    requires WellFormed(s)
    ensures r.0.catalogCache == s.catalogCache
    ensures WellFormed(r.0)
    ensures IsActive(r.0.carts, u.id, r.1)
    ensures r.0.books == s.books && r.0.items == s.items
    ensures forall c :: c in s.carts ==> c in r.0.carts && r.0.carts[c] == s.carts[c]
    ensures (exists c :: IsActive(s.carts, u.id, c)) ==> r.0 == s
    ensures r.0 != s ==> && r.1 !in s.carts && r.0.carts[r.1] == NewCart(u.id)
                         && r.0.carts.Keys == s.carts.Keys + {r.1}
                         && r.0.nextId == s.nextId + 1
    ensures OneActiveCart(s) ==> forall c :: IsActive(s.carts, u.id, c) ==> r.1 == c
  {
    match FindActive(s.carts, u.id, s.nextId)
    case Some(c) => (s, c)
    case None => (s.(carts := s.carts[s.nextId := NewCart(u.id)], nextId := s.nextId + 1), s.nextId)
  }

  /** Two calls with nothing in between give the same cart and the second
      changes nothing. */
  lemma GetUserCartIdempotent(s: Store, u: User)
    requires WellFormed(s)
    ensures var (s1, c1) := GetUserCart(s, u);
            GetUserCart(s1, u) == (s1, c1)
  {
    var (s1, c1) := GetUserCart(s, u);
    match FindActive(s.carts, u.id, s.nextId)
    case Some(c) => {}
    case None => {
      assert forall c: nat :: c < s1.nextId - 1 ==> !IsActive(s1.carts, u.id, c);
      assert FindActive(s1.carts, u.id, s1.nextId - 1).None?;
    }
  }

  /** Fetching the active cart keeps the invariant and keeps every cart's
      totals equal to its sums (a new cart has no lines and zero totals). */
  lemma GetUserCartKeepsInvariants(s: Store, u: User)
    requires Valid(s)
    ensures Valid(GetUserCart(s, u).0)
    ensures Consistent(s) ==> Consistent(GetUserCart(s, u).0)
  {
    var (s1, c1) := GetUserCart(s, u);
    if s1 != s {
      forall c | c in s1.carts && c != c1 && IsActive(s1.carts, s1.carts[c].user, c)
        ensures s1.carts[c].user != u.id
      {
        assert IsActive(s.carts, s.carts[c].user, c);
      }
      if Consistent(s) {
        forall c | c in s1.carts ensures TotalsMatch(s1, c) {
          forall m: Measure ensures CartSum(s1.items, c, s1.nextId, m) == CartSum(s.items, c, s.nextId, m) {
            CartSumBeyond(s.items, c, s.nextId, s1.nextId, m);
          }
          if c == c1 {
            forall m: Measure ensures CartSum(s.items, c, s.nextId, m) == 0 {
              CartSumNoLines(s.items, c, s.nextId, m);
            }
          }
        }
      }
    }
  }

  // ---------------------------------------------------------------------------
  // list

  /** GET: the caller's active cart and its lines. */
  function List(s: Store, u: User): (r: (Store, Outcome))
    requires WellFormed(s)
    ensures r.0.catalogCache == s.catalogCache
    ensures WellFormed(r.0)
    ensures r.0.books == s.books && r.0.items == s.items
    ensures forall c :: c in s.carts ==> c in r.0.carts && r.0.carts[c] == s.carts[c]
    ensures r.1.Ok? && r.1.reply.CartShown?
    ensures IsActive(r.0.carts, u.id, r.1.reply.cart)
    ensures forall id :: id in r.1.reply.lines <==> InCart(r.0.items, r.1.reply.cart, id)
  {
    var (s1, c) := GetUserCart(s, u);
    LineIdsExact(s1.items, c, s1.nextId);
    (s1, Ok(CartShown(c, LineIds(s1, c))))
  }

  // ---------------------------------------------------------------------------
  // create

  /** Recompute both totals of `cart` from its current lines: the quantity
      total as the sum of quantities, the price total as the sum of `priceBy`. */
  function Retotal(s: Store, cart: Id, priceBy: Measure): (r: Store)
    requires cart in s.carts
    ensures r.catalogCache == s.catalogCache
    ensures r.books == s.books && r.items == s.items && r.nextId == s.nextId
    ensures r.carts.Keys == s.carts.Keys
    ensures forall c :: c in s.carts && c != cart ==> r.carts[c] == s.carts[c]
    ensures r.carts[cart].user == s.carts[cart].user && r.carts[cart].isOrdered == s.carts[cart].isOrdered
    ensures r.carts[cart].totalQuantity == CartSum(s.items, cart, s.nextId, Quantity)
    ensures r.carts[cart].totalPrice == CartSum(s.items, cart, s.nextId, priceBy)
  {
    s.(carts := s.carts[cart := s.carts[cart].(totalQuantity := CartSum(s.items, cart, s.nextId, Quantity),
                                               totalPrice := CartSum(s.items, cart, s.nextId, priceBy))])
  }

  /** `CartItem.objects.get_or_create(cart=cart, book=book)`: the existing
      line, or a fresh one with default fields. */
  function GetOrCreateLine(s: Store, cart: Id, book: Id): (r: (Store, Id))
    requires WellFormed(s) && cart in s.carts && book in s.books
    ensures r.0.catalogCache == s.catalogCache
    ensures WellFormed(r.0)
    ensures IsLine(r.0.items, cart, book, r.1)
    ensures r.0.books == s.books && r.0.carts == s.carts
    ensures forall i :: i in s.items ==> i in r.0.items && r.0.items[i] == s.items[i]
    ensures (exists i :: IsLine(s.items, cart, book, i)) ==> r.0 == s
    ensures r.0 != s ==> && r.1 == s.nextId && r.0.nextId == s.nextId + 1
                         && r.0.items == s.items[r.1 := NewItem(cart, book)]
    ensures OneLinePerBook(s) ==> forall i :: IsLine(s.items, cart, book, i) ==> r.1 == i
  {
    match FindLine(s.items, cart, book, s.nextId)
    case Some(i) => (s, i)
    case None => (s.(items := s.items[s.nextId := NewItem(cart, book)], nextId := s.nextId + 1), s.nextId)
  }

  /** The line update inside the transaction of `create`: get or create the
      (cart, book) line, overwrite its quantity and subtotal, then recompute
      both cart totals from the cart's lines. */
  function Upsert(s: Store, cart: Id, book: Id, q: nat): (r: Store)
    requires WellFormed(s) && cart in s.carts && book in s.books
    ensures r.catalogCache == s.catalogCache
    ensures WellFormed(r)
    ensures r.books == s.books
    ensures r.carts.Keys == s.carts.Keys
    ensures forall c :: c in s.carts && c != cart ==> r.carts[c] == s.carts[c]
    ensures r.carts[cart].user == s.carts[cart].user && r.carts[cart].isOrdered == s.carts[cart].isOrdered
    ensures TotalsMatch(r, cart)
    ensures var (s2, line) := GetOrCreateLine(s, cart, book);
            && r.items == s.items[line := CartItem(cart, book, q, s.books[book].price * q)]
            && r.nextId == s2.nextId
    ensures exists i :: IsLine(r.items, cart, book, i) && r.items[i].quantity == q
                        && r.items[i].price == s.books[book].price * q
    ensures forall i :: i in s.items ==> i in r.items
    ensures forall i :: i in r.items && !IsLine(r.items, cart, book, i) ==> i in s.items && r.items[i] == s.items[i]
  {
    var (s2, line) := GetOrCreateLine(s, cart, book);
    var it := CartItem(cart, book, q, s.books[book].price * q);
    assert s2.items[line := it] == s.items[line := it];
    var s3 := s2.(items := s2.items[line := it]);
    assert IsLine(s3.items, cart, book, line);
    Retotal(s3, cart, Price)
  }

  /** What the input checks of `create` conclude, in the order the handler
      makes them: both values truthy, `int(quantity)` succeeds, the quantity
      is positive. `book_id` itself is only converted by the lookup. */
  datatype AddInput = Accepted(quantity: nat) | Rejected(why: Refusal)

  function ValidateAdd(bookId: Field, quantity: Field): (r: AddInput)
    ensures r == Rejected(Required) <==> !Truthy(bookId) || !Truthy(quantity)
    ensures r == Rejected(NotAnInteger) <==> Truthy(bookId) && Truthy(quantity) && ToInt(quantity).None?
    ensures r == Rejected(NotPositive) <==>
              Truthy(bookId) && Truthy(quantity) && ToInt(quantity).Some? && ToInt(quantity).value <= 0
    ensures r.Accepted? <==>
              Truthy(bookId) && Truthy(quantity) && ToInt(quantity).Some? && ToInt(quantity).value > 0
    ensures r.Accepted? ==> r.quantity == ToInt(quantity).value && r.quantity > 0
  {
    if !Truthy(bookId) || !Truthy(quantity) then Rejected(Required)
    else match ToInt(quantity)
      case None => Rejected(NotAnInteger)
      case Some(q) => if q <= 0 then Rejected(NotPositive) else Accepted(q)
  }

  /** `Book.objects.get(id=book_id)` converts the key with `int()` and finds
      the book under it, if any. */
  predicate FindsBook(s: Store, bookId: Field) {
    ToInt(bookId).Some? && ToInt(bookId).value >= 0 && ToInt(bookId).value in s.books
  }

  /** POST: validate `book_id` and `quantity`, look the book up, upsert its
      line. The active cart is fetched, and possibly created, first, so even a
      rejected request may leave a new empty cart behind. */
  function Create(s: Store, u: User, bookId: Field, quantity: Field): (r: (Store, Outcome))
    requires WellFormed(s)
    ensures WellFormed(r.0)
    ensures r.0.books == s.books && r.0.catalogCache == s.catalogCache
    ensures r.1.Err? ==> r.0 == GetUserCart(s, u).0
    ensures ValidateAdd(bookId, quantity).Rejected? ==> r.1 == Err(Invalid(ValidateAdd(bookId, quantity).why))
    ensures r.1 == Err(BookKeyNotANumber) <==> ValidateAdd(bookId, quantity).Accepted? && ToInt(bookId).None?
    ensures r.1.Err? && r.1.error.BookNotFound? <==>
              ValidateAdd(bookId, quantity).Accepted? && ToInt(bookId).Some? && !FindsBook(s, bookId)
    ensures r.1.Err? && r.1.error.BookNotFound? ==> r.1.error.bookId == ToInt(bookId).value
    ensures r.1.Ok? <==> ValidateAdd(bookId, quantity).Accepted? && FindsBook(s, bookId)
    ensures r.1.Ok? ==> && r.1.reply == CartUpdated(GetUserCart(s, u).1)
                        && IsActive(r.0.carts, u.id, r.1.reply.cart)
                        && TotalsMatch(r.0, r.1.reply.cart)
                        && exists i :: && IsLine(r.0.items, r.1.reply.cart, ToInt(bookId).value, i)
                                       && r.0.items[i].quantity == ToInt(quantity).value
                                       && r.0.items[i].price == s.books[ToInt(bookId).value].price * ToInt(quantity).value
  {
    var (s1, cart) := GetUserCart(s, u);
    match ValidateAdd(bookId, quantity)
    case Rejected(w) => (s1, Err(Invalid(w)))
    case Accepted(q) =>
      match ToInt(bookId)
      case None => (s1, Err(BookKeyNotANumber))
      case Some(b) =>
        if !(b >= 0 && b in s1.books) then (s1, Err(BookNotFound(b)))
        else (Upsert(s1, cart, b, q), Ok(CartUpdated(cart)))
  }

  /** An absent, zero or empty value of either key is refused as missing,
      whatever the other key holds; a present book key with a negative
      quantity is refused as not positive. */
  lemma ValidateAddRequired(b: Field, q: Field, n: int)
    ensures ValidateAdd(Missing, q) == Rejected(Required)
    ensures ValidateAdd(Int(0), q) == Rejected(Required)
    ensures ValidateAdd(Text(""), q) == Rejected(Required)
    ensures ValidateAdd(b, Missing) == Rejected(Required)
    ensures ValidateAdd(b, Int(0)) == Rejected(Required)
    ensures ValidateAdd(b, Text("")) == Rejected(Required)
    ensures Truthy(b) && n < 0 ==> ValidateAdd(b, Int(n)) == Rejected(NotPositive)
  {
  }

  /** The key "0" sent as text is truthy, so it passes the presence check and
      the lookup by key 0 decides: with no book 0 the answer is "Book not
      found.", not the refusal of a missing value. */
  lemma CreateWithTextZeroKey(s: Store, u: User, q: nat)
    requires WellFormed(s) && 0 !in s.books && q > 0
    ensures Create(s, u, Text("0"), Int(q)).1 == Err(BookNotFound(0))
  {
    ParseIntOfDigits("0");
    assert DigitsValue("0") == 0;
    var key := Text("0");
    assert Truthy(key) && ToInt(key) == Some(0);
    CreateUnknownKey(s, u, key, Int(q), 0);
  }

  /** A key that converts to a number no book has is answered "Book not
      found." once the quantity passed its checks. */
  lemma CreateUnknownKey(s: Store, u: User, bookId: Field, quantity: Field, b: int)
    requires WellFormed(s) && Truthy(bookId) && ToInt(bookId) == Some(b) && b !in s.books
    requires Truthy(quantity) && ToInt(quantity).Some? && ToInt(quantity).value > 0
    ensures Create(s, u, bookId, quantity).1 == Err(BookNotFound(b))
  {
  }

  /** A book key sent as text without a digit is refused by the lookup's
      conversion once the quantity passed its checks. */
  lemma CreateWithTextKeyNoDigits(s: Store, u: User, t: string, q: nat)
    requires WellFormed(s) && t != [] && q > 0
    requires forall i :: 0 <= i < |t| ==> !IsDigit(t[i])
    ensures Create(s, u, Text(t), Int(q)).1 == Err(BookKeyNotANumber)
  {
  }

  /** A quantity sent as the decimal text of a number is that number: accepted
      when positive, refused as not positive when zero. Past int()'s digit
      limit the same text is refused as not an integer. */
  lemma ValidateAddDecimal(bookId: Field, n: nat)
    requires Truthy(bookId)
    ensures |NatToString(n)| <= MaxStrDigits ==>
              ValidateAdd(bookId, Text(NatToString(n))) ==
                if n == 0 then Rejected(NotPositive) else Accepted(n)
    ensures |NatToString(n)| > MaxStrDigits ==>
              ValidateAdd(bookId, Text(NatToString(n))) == Rejected(NotAnInteger)
  {
    var t := NatToString(n);
    var k := Text(t);
    assert Truthy(k);
    ParseIntOfDigits(t);
    if |t| <= MaxStrDigits {
      ParseIntOfNatToString(n);
      assert ToInt(k) == Some(n as int);
    } else {
      assert ToInt(k) == None;
    }
  }

  /** A book key sent as a run of digits longer than int()'s limit ends in the
      uncaught `ValueError` of the lookup, although every digit is valid. */
  lemma CreateWithOverlongTextKey(s: Store, u: User, d: string, q: nat)
    requires WellFormed(s) && AllDigits(d) && |d| > MaxStrDigits && q > 0
    ensures Create(s, u, Text(d), Int(q)).1 == Err(BookKeyNotANumber)
  {
    ParseIntOfDigits(d);
    var key := Text(d);
    assert Truthy(key) && ToInt(key).None?;
    CreateUnconvertibleKey(s, u, key, Int(q));
  }

  /** A key that `int()` refuses is the uncaught `ValueError` once the
      quantity passed its checks. */
  lemma CreateUnconvertibleKey(s: Store, u: User, bookId: Field, quantity: Field)
    requires WellFormed(s) && Truthy(bookId) && ToInt(bookId).None?
    requires Truthy(quantity) && ToInt(quantity).Some? && ToInt(quantity).value > 0
    ensures Create(s, u, bookId, quantity).1 == Err(BookKeyNotANumber)
  {
  }

  /** A quantity sent as a minus sign and digits is refused as not positive,
      or as not an integer when the digits exceed int()'s limit. */
  lemma ValidateAddNegative(bookId: Field, t: string)
    requires Truthy(bookId) && |t| > 1 && t[0] == '-' && AllDigits(t[1..])
    ensures |t| - 1 <= MaxStrDigits ==> ValidateAdd(bookId, Text(t)) == Rejected(NotPositive)
    ensures |t| - 1 > MaxStrDigits ==> ValidateAdd(bookId, Text(t)) == Rejected(NotAnInteger)
  {
    ParseIntOfNegatedDigits(t);
  }

  /** Non-empty text without a single digit is refused as not an integer. */
  lemma ValidateAddNoDigits(bookId: Field, t: string)
    requires Truthy(bookId) && t != []
    requires forall i :: 0 <= i < |t| ==> !IsDigit(t[i])
    ensures ValidateAdd(bookId, Text(t)) == Rejected(NotAnInteger)
  {
  }

  /** Adding a book already in the cart overwrites its line: the cart's
      quantity total moves by the difference between the new and the old
      quantity, and its price total by the difference of the subtotals. */
  lemma UpsertOverwrites(s: Store, cart: Id, book: Id, q: nat, i: Id)
    requires WellFormed(s) && cart in s.carts && book in s.books && TotalsMatch(s, cart)
    requires FindLine(s.items, cart, book, s.nextId) == Some(i)
    ensures var r := Upsert(s, cart, book, q);
            && r.carts[cart].totalQuantity + s.items[i].quantity == s.carts[cart].totalQuantity + q
            && r.carts[cart].totalPrice + s.items[i].price == s.carts[cart].totalPrice + s.books[book].price * q
  {
    var it := CartItem(cart, book, q, s.books[book].price * q);
    var r := Upsert(s, cart, book, q);
    var (s2, line) := GetOrCreateLine(s, cart, book);
    assert s2 == s && line == i;
    ReplacedTotals(s, r, cart, i, it);
  }

  /** Totals that match the sums before and after a line of the cart is
      replaced differ by the difference of the two lines' amounts. */
  lemma ReplacedTotals(s: Store, r: Store, cart: Id, i: Id, it: CartItem)
    requires cart in s.carts && cart in r.carts && TotalsMatch(s, cart) && TotalsMatch(r, cart)
    requires i < s.nextId && InCart(s.items, cart, i)
    requires it.cart == cart && r.items == s.items[i := it] && r.nextId == s.nextId
    ensures r.carts[cart].totalQuantity + s.items[i].quantity == s.carts[cart].totalQuantity + it.quantity
    ensures r.carts[cart].totalPrice + s.items[i].price == s.carts[cart].totalPrice + it.price
  {
    CartSumReplace(s.items, cart, s.nextId, Quantity, i, it);
    CartSumReplace(s.items, cart, s.nextId, Price, i, it);
  }

  /** Adding a book not yet in the cart stores its line under the next key. */
  lemma UpsertAppendsLine(s: Store, cart: Id, book: Id, q: nat)
    requires WellFormed(s) && cart in s.carts && book in s.books
    requires FindLine(s.items, cart, book, s.nextId).None?
    ensures var r := Upsert(s, cart, book, q);
            && r.items == s.items[s.nextId := CartItem(cart, book, q, s.books[book].price * q)]
            && r.nextId == s.nextId + 1
  {
    assert GetOrCreateLine(s, cart, book).1 == s.nextId;
  }

  /** Adding a book not yet in the cart adds a line: the quantity total grows
      by the quantity and the price total by the line's subtotal. */
  lemma UpsertAppends(s: Store, cart: Id, book: Id, q: nat)
    requires WellFormed(s) && cart in s.carts && book in s.books && TotalsMatch(s, cart)
    requires FindLine(s.items, cart, book, s.nextId).None?
    ensures var r := Upsert(s, cart, book, q);
            && r.carts[cart].totalQuantity == s.carts[cart].totalQuantity + q
            && r.carts[cart].totalPrice == s.carts[cart].totalPrice + s.books[book].price * q
  {
    var it := CartItem(cart, book, q, s.books[book].price * q);
    var r := Upsert(s, cart, book, q);
    UpsertAppendsLine(s, cart, book, q);
    AppendedTotals(s, r, cart, it);
  }

  /** Totals that match the sums before and after a line is appended under
      the next key differ by that line's amounts. */
  lemma AppendedTotals(s: Store, r: Store, cart: Id, it: CartItem)
    requires cart in s.carts && cart in r.carts && TotalsMatch(s, cart) && TotalsMatch(r, cart)
    requires forall id :: id in s.items ==> id < s.nextId
    requires it.cart == cart && r.items == s.items[s.nextId := it] && r.nextId == s.nextId + 1
    ensures r.carts[cart].totalQuantity == s.carts[cart].totalQuantity + it.quantity
    ensures r.carts[cart].totalPrice == s.carts[cart].totalPrice + it.price
  {
    CartSumAppend(s.items, cart, s.nextId, Quantity, it);
    CartSumAppend(s.items, cart, s.nextId, Price, it);
  }

  /** `create` keeps the store invariant (in particular at most one line per
      (cart, book)) and keeps every cart's totals equal to its sums. */
  lemma CreateKeepsInvariants(s: Store, u: User, bookId: Field, quantity: Field)
    requires Valid(s)
    ensures Valid(Create(s, u, bookId, quantity).0)
    ensures Consistent(s) ==> Consistent(Create(s, u, bookId, quantity).0)
  {
    GetUserCartKeepsInvariants(s, u);
    var (s1, cart) := GetUserCart(s, u);
    var r := Create(s, u, bookId, quantity);
    if r.1.Ok? {
      UpsertKeepsValid(s1, cart, ToInt(bookId).value, ToInt(quantity).value);
      if Consistent(s) {
        UpsertKeepsConsistent(s1, cart, ToInt(bookId).value, ToInt(quantity).value);
      }
    }
  }

  /** The line update of `create` keeps the store invariant. */
  lemma UpsertKeepsValid(s: Store, cart: Id, book: Id, q: nat)
    requires Valid(s) && cart in s.carts && book in s.books
    ensures Valid(Upsert(s, cart, book, q))
  {
    var r := Upsert(s, cart, book, q);
    forall c | c in r.carts ensures c in s.carts && r.carts[c].user == s.carts[c].user && r.carts[c].isOrdered == s.carts[c].isOrdered {
      if c != cart {
        assert r.carts[c] == s.carts[c];
      }
    }
    ActiveCartsShrink(s, r);
    UpsertKeepsOneLine(s, cart, book, q);
  }

  /** Upserting a line of `cart` leaves the lines of every other cart alone. */
  lemma UpsertSparesOtherCarts(s: Store, cart: Id, book: Id, q: nat, c: Id)
    requires WellFormed(s) && cart in s.carts && book in s.books && c != cart
    ensures var r := Upsert(s, cart, book, q);
            && (forall i :: InCart(s.items, c, i) ==> i in r.items && r.items[i] == s.items[i])
            && (forall i :: InCart(r.items, c, i) ==> InCart(s.items, c, i))
  {
    var (s2, line) := GetOrCreateLine(s, cart, book);
    forall i | InCart(s.items, c, i) ensures i != line {
      assert s2.items[i] == s.items[i];
    }
  }

  /** The line `create` writes is the only (cart, book) line afterwards. */
  lemma UpsertKeepsOneLine(s: Store, cart: Id, book: Id, q: nat)
    requires WellFormed(s) && OneLinePerBook(s) && cart in s.carts && book in s.books
    ensures OneLinePerBook(Upsert(s, cart, book, q))
  {
    var r := Upsert(s, cart, book, q);
    var (s2, line) := GetOrCreateLine(s, cart, book);
    forall i | IsLine(r.items, cart, book, i) ensures i == line {
      if i != line {
        assert IsLine(s.items, cart, book, i);
      }
    }
    forall i, j | i in r.items && j in r.items && IsLine(r.items, r.items[i].cart, r.items[i].book, j)
      ensures i == j
    {
      if !IsLine(r.items, cart, book, i) {
        assert IsLine(s.items, s.items[i].cart, s.items[i].book, j);
      }
    }
  }

  /** The line update of `create` keeps every cart's totals equal to its sums:
      its own cart by the recomputation, the others because none of their
      lines changes. */
  lemma UpsertKeepsConsistent(s: Store, cart: Id, book: Id, q: nat)
    requires WellFormed(s) && cart in s.carts && book in s.books && Consistent(s)
    ensures Consistent(Upsert(s, cart, book, q))
  {
    var r := Upsert(s, cart, book, q);
    forall c | c in r.carts && c != cart ensures TotalsMatch(r, c) {
      assert TotalsMatch(s, c);
      forall m: Measure ensures CartSum(r.items, c, r.nextId, m) == CartSum(s.items, c, s.nextId, m) {
        CartSumBeyond(s.items, c, s.nextId, r.nextId, m);
        forall k: nat | k < r.nextId ensures SameLine(s.items, r.items, c, k) {
          if InCart(r.items, c, k) { assert !IsLine(r.items, cart, book, k); }
        }
        CartSumFrame(s.items, r.items, c, r.nextId, m);
      }
    }
  }

  // ---------------------------------------------------------------------------
  // destroy

  /** `cart_item.delete()` followed by the recomputation of `destroy`: the
      quantity total is the sum of the remaining quantities, the price total
      the sum of quantity times line subtotal. */
  function RemoveLine(s: Store, cart: Id, id: Id): (r: Store)
    requires WellFormed(s) && cart in s.carts && InCart(s.items, cart, id)
    ensures r.catalogCache == s.catalogCache
    ensures WellFormed(r)
    ensures r.items == s.items - {id} && r.books == s.books && r.nextId == s.nextId
    ensures r.carts.Keys == s.carts.Keys
    ensures forall c :: c in s.carts && c != cart ==> r.carts[c] == s.carts[c]
    ensures r.carts[cart].isOrdered == s.carts[cart].isOrdered && r.carts[cart].user == s.carts[cart].user
    ensures r.carts[cart].totalQuantity == CartSum(r.items, cart, r.nextId, Quantity)
    ensures r.carts[cart].totalPrice == CartSum(r.items, cart, r.nextId, QuantityTimesPrice)
    ensures LineIds(r, cart) == [] ==> r.carts[cart].totalQuantity == 0 && r.carts[cart].totalPrice == 0
  {
    var s2 := s.(items := s.items - {id});
    EmptyListingSumsToZero(s2.items, cart, s2.nextId, Quantity);
    EmptyListingSumsToZero(s2.items, cart, s2.nextId, QuantityTimesPrice);
    Retotal(s2, cart, QuantityTimesPrice)
  }

  /** `cart.items.all().delete()` and both totals set to 0. */
  function ClearCart(s: Store, cart: Id): (r: Store)
    requires WellFormed(s) && cart in s.carts
    ensures r.catalogCache == s.catalogCache
    ensures WellFormed(r)
    ensures r.books == s.books && r.nextId == s.nextId
    ensures r.carts.Keys == s.carts.Keys
    ensures forall c :: c in s.carts && c != cart ==> r.carts[c] == s.carts[c]
    ensures r.carts[cart] == s.carts[cart].(totalQuantity := 0, totalPrice := 0)
    ensures forall id :: id in r.items <==> id in s.items && !InCart(s.items, cart, id)
    ensures forall id :: id in r.items ==> r.items[id] == s.items[id]
  {
    s.(items := map id | id in s.items && s.items[id].cart != cart :: s.items[id],
       carts := s.carts[cart := s.carts[cart].(totalQuantity := 0, totalPrice := 0)])
  }

  /** `if pk:` for a key taken from the URL. */
  predicate HoldsLine(items: map<Id, CartItem>, cart: Id, pk: int) {
    pk >= 0 && InCart(items, cart, pk)
  }

  /** DELETE: with a key, remove that line of the active cart and recompute
      the totals; without one, remove every line of the active cart and zero
      the totals. A key that is not a line of the active cart changes nothing. */
  function Destroy(s: Store, u: User, pk: Option<int>): (r: (Store, Outcome))
    requires WellFormed(s)
    ensures r.0.catalogCache == s.catalogCache
    ensures WellFormed(r.0)
    ensures r.0.books == s.books
    ensures var (s1, cart) := GetUserCart(s, u);
            && (r.1.Err? <==> pk.Some? && !HoldsLine(s1.items, cart, pk.value))
            && (r.1.Err? ==> r.1.error == ItemNotFound && r.0 == s1)
            && (r.1.Ok? ==> r.1.reply == ItemsRemoved && r.0.carts.Keys == s1.carts.Keys)
            && (r.1.Ok? ==> forall c :: c in s1.carts && c != cart ==> r.0.carts[c] == s1.carts[c])
            && (r.1.Ok? && pk.Some? ==> r.0.items == s1.items - {pk.value as nat})
            && (r.1.Ok? && pk.Some? ==>
                  && r.0.carts[cart].totalQuantity == CartSum(r.0.items, cart, r.0.nextId, Quantity)
                  && r.0.carts[cart].totalPrice == CartSum(r.0.items, cart, r.0.nextId, QuantityTimesPrice))
            && (pk.None? ==> && (forall id :: !InCart(r.0.items, cart, id))
                             && r.0.carts[cart].totalQuantity == 0 && r.0.carts[cart].totalPrice == 0)
  {
    var (s1, cart) := GetUserCart(s, u);
    match pk
    case None => (ClearCart(s1, cart), Ok(ItemsRemoved))
    case Some(id) =>
      if HoldsLine(s1.items, cart, id) then (RemoveLine(s1, cart, id), Ok(ItemsRemoved))
      else (s1, Err(ItemNotFound))
  }

  /** Removing one line lowers the cart's quantity total by that line's
      quantity, and every other cart keeps totals equal to its sums. */
  lemma DestroyItemTotals(s: Store, u: User, id: Id)
    requires Valid(s) && Consistent(s)
    requires InCart(GetUserCart(s, u).0.items, GetUserCart(s, u).1, id)
    ensures var (s1, cart) := GetUserCart(s, u);
            var r := Destroy(s, u, Some(id)).0;
            && r.carts[cart].totalQuantity + s1.items[id].quantity == s1.carts[cart].totalQuantity
            && forall c :: c in r.carts && c != cart ==> TotalsMatch(r, c)
  {
    GetUserCartKeepsInvariants(s, u);
    var (s1, cart) := GetUserCart(s, u);
    var r := Destroy(s, u, Some(id)).0;
    assert TotalsMatch(s1, cart);
    CartSumRemove(s1.items, cart, s1.nextId, Quantity, id);
    forall c | c in r.carts && c != cart ensures TotalsMatch(r, c) {
      assert TotalsMatch(s1, c);
      forall m: Measure ensures CartSum(r.items, c, r.nextId, m) == CartSum(s1.items, c, s1.nextId, m) {
        forall k: nat | k < r.nextId ensures SameLine(s1.items, r.items, c, k) { }
        CartSumFrame(s1.items, r.items, c, r.nextId, m);
      }
    }
  }

  /** Clearing the cart keeps the invariant and every cart's totals equal to
      its sums. */
  lemma ClearCartKeepsInvariants(s: Store, u: User)
    requires Valid(s)
    ensures Valid(Destroy(s, u, None).0)
    ensures Consistent(s) ==> Consistent(Destroy(s, u, None).0)
  {
    GetUserCartKeepsInvariants(s, u);
    var (s1, cart) := GetUserCart(s, u);
    assert Destroy(s, u, None).0 == ClearCart(s1, cart);
    ClearCartKeepsValid(s1, cart);
    if Consistent(s) {
      ClearCartKeepsConsistent(s1, cart);
    }
  }

  /** Clearing a cart keeps the store invariant. */
  lemma ClearCartKeepsValid(s: Store, cart: Id)
    requires Valid(s) && cart in s.carts
    ensures Valid(ClearCart(s, cart))
  {
    var r := ClearCart(s, cart);
    ActiveCartsShrink(s, r);
    LinesShrink(s, r);
  }

  /** Clearing a cart leaves it with no lines and zero totals, and every
      other cart as it was. */
  lemma ClearCartKeepsConsistent(s: Store, cart: Id)
    requires WellFormed(s) && cart in s.carts && Consistent(s)
    ensures Consistent(ClearCart(s, cart))
  {
    var r := ClearCart(s, cart);
    forall c | c in r.carts ensures TotalsMatch(r, c) {
      forall m: Measure ensures CartSum(r.items, c, r.nextId, m) == (if c == cart then 0 else CartSum(s.items, c, s.nextId, m)) {
        if c == cart {
          CartSumNoLines(r.items, c, r.nextId, m);
        } else {
          forall k: nat | k < r.nextId ensures SameLine(s.items, r.items, c, k) { }
          CartSumFrame(s.items, r.items, c, r.nextId, m);
        }
      }
      assert TotalsMatch(s, c);
    }
  }


  /** Removing one line keeps the store invariant. */
  lemma DestroyItemKeepsValid(s: Store, u: User, id: int)
    requires Valid(s)
    ensures Valid(Destroy(s, u, Some(id)).0)
  {
    GetUserCartKeepsInvariants(s, u);
    var (s1, cart) := GetUserCart(s, u);
    if HoldsLine(s1.items, cart, id) {
      assert Destroy(s, u, Some(id)).0 == RemoveLine(s1, cart, id);
      RemoveLineKeepsValid(s1, cart, id);
    }
  }

  /** Removing one line of a cart keeps the store invariant. */
  lemma RemoveLineKeepsValid(s: Store, cart: Id, id: Id)
    requires Valid(s) && cart in s.carts && InCart(s.items, cart, id)
    ensures Valid(RemoveLine(s, cart, id))
  {
    var r := RemoveLine(s, cart, id);
    ActiveCartsShrink(s, r);
    LinesShrink(s, r);
  }

  // ---------------------------------------------------------------------------
  // order_cart

  /** The quantity the lines `ids` ask of book `b`. */
  function Demand(items: map<Id, CartItem>, ids: seq<Id>, b: Id): nat
    requires forall k :: 0 <= k < |ids| ==> ids[k] in items
  {
    if ids == [] then 0
    else (if items[ids[0]].book == b then items[ids[0]].quantity else 0) + Demand(items, ids[1..], b)
  }

  /** `after` differs from `before` in book stock figures only. */
  predicate StockOnly(before: map<Id, Book>, after: map<Id, Book>) {
    && before.Keys == after.Keys
    && forall b :: b in before ==> after[b] == before[b].(stock := after[b].stock)
  }

  /** `after` holds the stock left once the lines `ids` were served from
      `before`: each book lost exactly what the lines asked of it. */
  predicate Served(before: map<Id, Book>, items: map<Id, CartItem>, ids: seq<Id>, after: map<Id, Book>)
    requires forall k :: 0 <= k < |ids| ==> ids[k] in items
  {
    forall b :: b in before ==>
      && b in after
      && Demand(items, ids, b) <= before[b].stock
      && after[b].stock == before[b].stock - Demand(items, ids, b)
  }

  /** Two stock-only changes in a row are a stock-only change. */
  lemma StockOnlyChain(a: map<Id, Book>, b: map<Id, Book>, c: map<Id, Book>)
    requires StockOnly(a, b) && StockOnly(b, c)
    ensures StockOnly(a, c)
  {
  }

  /** One line served: its book loses the line's quantity. */
  function Take(books: map<Id, Book>, line: CartItem): (r: map<Id, Book>)
    requires line.book in books && line.quantity <= books[line.book].stock
    ensures StockOnly(books, r)
    ensures r[line.book].stock + line.quantity == books[line.book].stock
    ensures forall b :: b in books && b != line.book ==> r[b] == books[b]
  {
    books[line.book := books[line.book].(stock := books[line.book].stock - line.quantity)]
  }

  /** Serving the first line and then the rest is serving all of them. */
  lemma ServedStep(books: map<Id, Book>, items: map<Id, CartItem>, ids: seq<Id>, after: map<Id, Book>)
    requires |ids| > 0 && forall k :: 0 <= k < |ids| ==> ids[k] in items
    requires items[ids[0]].book in books && items[ids[0]].quantity <= books[items[ids[0]].book].stock
    requires Served(Take(books, items[ids[0]]), items, ids[1..], after)
    ensures Served(books, items, ids, after)
  {
    var line := items[ids[0]];
    forall b | b in books
      ensures && b in after
              && Demand(items, ids, b) <= books[b].stock
              && after[b].stock == books[b].stock - Demand(items, ids, b)
    {
      assert b in Take(books, line);
    }
  }

  /** The checkout loop: walk the lines in order; for each, stop if its book's
      stock is below the line quantity, otherwise decrement and save that
      book at once. Returns the books as saved and, on a stop, the position of
      the line that stopped the walk. What the saved stock figures are is
      stated by `DecrementServes`. */
  function Decrement(books: map<Id, Book>, items: map<Id, CartItem>, ids: seq<Id>): (r: (map<Id, Book>, Option<nat>))
    requires forall k :: 0 <= k < |ids| ==> ids[k] in items && items[ids[k]].book in books
    ensures StockOnly(books, r.0)
    ensures r.1.Some? ==> && r.1.value < |ids|
                          && r.0[items[ids[r.1.value]].book].stock < items[ids[r.1.value]].quantity
  {
    if ids == [] then (books, None)
    else
      var line := items[ids[0]];
      if books[line.book].stock < line.quantity then (books, Some(0))
      else
        var rest := Decrement(Take(books, line), items, ids[1..]);
        StockOnlyChain(books, Take(books, line), rest.0);
        match rest.1
        case None => (rest.0, None)
        case Some(k) =>
          assert ids[1..][k] == ids[k + 1];
          (rest.0, Some(k + 1))
  }

  /** The stock the loop leaves: when it reaches the end, every book lost
      exactly what the lines asked of it; when it stops at a line, every book
      lost exactly what the lines before that one asked of it. */
  lemma {:induction false} DecrementServes(books: map<Id, Book>, items: map<Id, CartItem>, ids: seq<Id>)
    requires forall k :: 0 <= k < |ids| ==> ids[k] in items && items[ids[k]].book in books
    ensures var r := Decrement(books, items, ids);
            && (r.1.None? ==> Served(books, items, ids, r.0))
            && (r.1.Some? ==> Served(books, items, ids[..r.1.value], r.0))
  {
    if ids == [] {
    } else {
      var line := items[ids[0]];
      if books[line.book].stock < line.quantity {
        assert ids[..0] == [];
      } else {
        var rest := Decrement(Take(books, line), items, ids[1..]);
        DecrementServes(Take(books, line), items, ids[1..]);
        match rest.1
        case None =>
          ServedStep(books, items, ids, rest.0);
        case Some(k) =>
          assert ids[..k + 1][1..] == ids[1..][..k];
          ServedStep(books, items, ids[..k + 1], rest.0);
      }
    }
  }

  /** The checkout loop stopped at line position `k` of `cart`: every line
      before it was served from stock, its own book had too little, and the
      error names that book and the stock it has left. */
  predicate StoppedAt(s: Store, cart: Id, books: map<Id, Book>, e: Error, k: int)
    requires WellFormed(s)
  {
    var ids := LineIds(s, cart);
    && 0 <= k < |ids|
    && var b := s.items[ids[k]].book;
       && b in books
       && e == NotEnoughStock(books[b].name, books[b].stock)
       && books[b].stock < s.items[ids[k]].quantity
       && forall b' :: b' in s.books ==> b' in books && books[b'].stock == s.books[b'].stock - Demand(s.items, ids[..k], b')
  }

  /** The keys of a cart's lines name existing lines of existing books. */
  lemma LineIdsLinked(s: Store, cart: Id)
    requires WellFormed(s)
    ensures var ids := LineIds(s, cart);
            forall k :: 0 <= k < |ids| ==> ids[k] in s.items && s.items[ids[k]].book in s.books
  {
  }

  /** The checkout loop run over the lines of `cart`. */
  function Walk(s: Store, cart: Id): (r: (map<Id, Book>, Option<nat>))
    requires WellFormed(s)
    ensures StockOnly(s.books, r.0)
  {
    LineIdsLinked(s, cart);
    Decrement(s.books, s.items, LineIds(s, cart))
  }

  /** The checkout loop over the lines of `cart` and, if it reaches the end,
      the flip of the cart to ordered. The loop's outcome is stated by
      `ServeCompletes` and `ServeStops`. */
  function Serve(s: Store, cart: Id): (r: (Store, Outcome))
    requires WellFormed(s) && cart in s.carts
    ensures r.0.catalogCache == s.catalogCache
    ensures r.0.items == s.items && r.0.nextId == s.nextId && r.0.carts.Keys == s.carts.Keys
    ensures StockOnly(s.books, r.0.books)
    ensures r.1.Ok? || r.1.error.NotEnoughStock?
  {
    var d := Walk(s, cart);
    if d.1.Some? then
      var b := d.0[s.items[LineIds(s, cart)[d.1.value]].book];
      (s.(books := d.0), Err(NotEnoughStock(b.name, b.stock)))
    else
      (s.(books := d.0, carts := s.carts[cart := s.carts[cart].(isOrdered := true)]), Ok(CartOrdered(cart)))
  }

  /** Serving keeps keys and links intact. */
  lemma ServeKeepsWellFormed(s: Store, cart: Id)
    requires WellFormed(s) && cart in s.carts
    ensures WellFormed(Serve(s, cart).0)
  {
  }

  /** When every line could be served, the cart is ordered and each book's
      stock went down by exactly what the cart's lines asked of it. */
  lemma ServeCompletes(s: Store, cart: Id)
    requires WellFormed(s) && cart in s.carts
    ensures var r := Serve(s, cart);
            r.1.Ok? ==> && r.1.reply == CartOrdered(cart)
                        && r.0.carts == s.carts[cart := s.carts[cart].(isOrdered := true)]
                        && forall b :: b in s.books ==>
                             r.0.books[b].stock == s.books[b].stock - Demand(s.items, LineIds(s, cart), b)
  {
    LineIdsLinked(s, cart);
    DecrementServes(s.books, s.items, LineIds(s, cart));
  }

  /** When a line's book ran short, no cart changed, and the stock figures are
      those left by the lines served before that one. */
  lemma ServeStops(s: Store, cart: Id)
    requires WellFormed(s) && cart in s.carts
    ensures var r := Serve(s, cart);
            r.1.Err? ==> r.0.carts == s.carts && exists k :: StoppedAt(s, cart, r.0.books, r.1.error, k)
  {
    LineIdsLinked(s, cart);
    DecrementServes(s.books, s.items, LineIds(s, cart));
    var r := Serve(s, cart);
    var d := Walk(s, cart);
    if d.1.Some? {
      assert StoppedAt(s, cart, r.0.books, r.1.error, d.1.value);
    }
  }

  /** The body of `order_cart` once the cart is in hand: refuse an ordered
      cart, then an empty one, then serve the lines. */
  function Checkout(s: Store, cart: Id): (r: (Store, Outcome))
    requires WellFormed(s) && cart in s.carts
    ensures r.0.catalogCache == s.catalogCache
    ensures WellFormed(r.0)
    ensures r.0.items == s.items && r.0.nextId == s.nextId && StockOnly(s.books, r.0.books)
    ensures r.0.carts == s.carts || r.0.carts == s.carts[cart := s.carts[cart].(isOrdered := true)]
    ensures r.1 == Err(AlreadyOrdered) <==> s.carts[cart].isOrdered
    ensures !s.carts[cart].isOrdered ==> (r.1 == Err(EmptyCart) <==> LineIds(s, cart) == [])
    ensures r.1 == Err(AlreadyOrdered) || r.1 == Err(EmptyCart) ==> r.0 == s
    ensures r.1 != Err(AlreadyOrdered) && r.1 != Err(EmptyCart) ==> r == Serve(s, cart)
  {
    ServeCompletes(s, cart);
    ServeStops(s, cart);
    if s.carts[cart].isOrdered then (s, Err(AlreadyOrdered))
    else if |LineIds(s, cart)| == 0 then (s, Err(EmptyCart))
    else Serve(s, cart)
  }

  /** PATCH order_cart on the caller's active cart. The loop is not
      transactional: books saved before a shortage stay saved. The "already
      ordered" refusal cannot happen, since the active cart is unordered. */
  function OrderCart(s: Store, u: User): (r: (Store, Outcome))
    requires WellFormed(s)
    ensures r.0.catalogCache == s.catalogCache
    ensures WellFormed(r.0)
    ensures r.1 != Err(AlreadyOrdered)
    ensures var (s1, cart) := GetUserCart(s, u);
            && r.0.items == s1.items && r.0.nextId == s1.nextId && StockOnly(s1.books, r.0.books)
            && (r.1 == Err(EmptyCart) <==> LineIds(s1, cart) == [])
            && (r.1 == Err(EmptyCart) ==> r.0 == s1)
            && (r.1.Ok? ==> && r.1.reply == CartOrdered(cart)
                            && r.0.carts == s1.carts[cart := s1.carts[cart].(isOrdered := true)]
                            && forall b :: b in s1.books ==>
                                 r.0.books[b].stock == s1.books[b].stock - Demand(s1.items, LineIds(s1, cart), b))
            && (r.1.Err? ==> r.0.carts == s1.carts && (r.1 == Err(EmptyCart) || r.1.error.NotEnoughStock?))
            && (r.1.Err? && r.1 != Err(EmptyCart) ==> exists k :: StoppedAt(s1, cart, r.0.books, r.1.error, k))
  {
    var (s1, cart) := GetUserCart(s, u);
    ServeCompletes(s1, cart);
    ServeStops(s1, cart);
    Checkout(s1, cart)
  }

  /** Lines with no book `b` ask nothing of it. */
  lemma {:induction false} DemandNone(items: map<Id, CartItem>, ids: seq<Id>, b: Id)
    requires forall k :: 0 <= k < |ids| ==> ids[k] in items && items[ids[k]].book != b
    ensures Demand(items, ids, b) == 0
  {
    if ids != [] {
      DemandNone(items, ids[1..], b);
    }
  }

  /** The lines `ids` name pairwise different books. */
  predicate DistinctBooks(items: map<Id, CartItem>, ids: seq<Id>) {
    forall i, j :: 0 <= i < |ids| && 0 <= j < |ids| && i != j && ids[i] in items && ids[j] in items ==>
      items[ids[i]].book != items[ids[j]].book
  }

  /** With at most one line per book among `ids`, a book's demand is the
      quantity of its line. */
  lemma {:induction false} DemandOfLine(items: map<Id, CartItem>, ids: seq<Id>, k: nat)
    requires k < |ids|
    requires forall j :: 0 <= j < |ids| ==> ids[j] in items
    requires DistinctBooks(items, ids)
    ensures Demand(items, ids, items[ids[k]].book) == items[ids[k]].quantity
  {
    var b := items[ids[k]].book;
    if k == 0 {
      forall j | 0 <= j < |ids[1..]| ensures items[ids[1..][j]].book != b {
        assert ids[1..][j] == ids[j + 1];
      }
      DemandNone(items, ids[1..], b);
    } else {
      forall i, j | 0 <= i < |ids[1..]| && 0 <= j < |ids[1..]| && i != j
        ensures items[ids[1..][i]].book != items[ids[1..][j]].book
      {
        assert ids[1..][i] == ids[i + 1] && ids[1..][j] == ids[j + 1];
      }
      assert ids[1..][k - 1] == ids[k];
      assert items[ids[0]].book != b;
      DemandOfLine(items, ids[1..], k - 1);
    }
  }

  /** The lines of one cart name pairwise different books. */
  lemma CartLinesDistinctBooks(s: Store, cart: Id)
    requires Valid(s)
    ensures DistinctBooks(s.items, LineIds(s, cart))
  {
    var ids := LineIds(s, cart);
    forall i, j | 0 <= i < |ids| && 0 <= j < |ids| && i != j && ids[i] in s.items && ids[j] in s.items
      ensures s.items[ids[i]].book != s.items[ids[j]].book
    {
      if i < j { assert ids[i] < ids[j]; } else { assert ids[j] < ids[i]; }
    }
  }

  /** A completed walk lowers each line's book stock by exactly the line's
      quantity. */
  lemma ServeTakesEachLine(s: Store, cart: Id)
    requires Valid(s) && cart in s.carts
    requires Serve(s, cart).1.Ok?
    ensures var r := Serve(s, cart).0;
            forall i :: InCart(s.items, cart, i) ==>
              r.books[s.items[i].book].stock == s.books[s.items[i].book].stock - s.items[i].quantity
  {
    ServeCompletes(s, cart);
    LineIdsLinked(s, cart);
    var r := Serve(s, cart).0;
    var ids := LineIds(s, cart);
    CartLinesDistinctBooks(s, cart);
    forall i | InCart(s.items, cart, i)
      ensures r.books[s.items[i].book].stock == s.books[s.items[i].book].stock - s.items[i].quantity
    {
      LineIdsComplete(s.items, cart, s.nextId, i);
      var k :| 0 <= k < |ids| && ids[k] == i;
      DemandOfLine(s.items, ids, k);
    }
  }

  /** A completed walk leaves every book no line of the cart names as it was. */
  lemma ServeSparesOtherBooks(s: Store, cart: Id)
    requires WellFormed(s) && cart in s.carts
    requires Serve(s, cart).1.Ok?
    ensures var r := Serve(s, cart).0;
            forall b :: b in s.books && (forall i :: InCart(s.items, cart, i) ==> s.items[i].book != b) ==>
              r.books[b] == s.books[b]
  {
    ServeCompletes(s, cart);
    var ids := LineIds(s, cart);
    forall b | b in s.books && (forall i :: InCart(s.items, cart, i) ==> s.items[i].book != b)
      ensures Demand(s.items, ids, b) == 0
    {
      DemandNone(s.items, ids, b);
    }
  }

  /** A successful `order_cart` lowers each line's book stock by exactly the
      line's quantity and leaves books no line names alone. */
  lemma CheckoutDecrementsExactly(s: Store, u: User)
    requires Valid(s)
    requires OrderCart(s, u).1.Ok?
    ensures var (s1, cart) := GetUserCart(s, u);
            var r := OrderCart(s, u).0;
            && (forall i :: InCart(s1.items, cart, i) ==>
                  r.books[s1.items[i].book].stock == s1.books[s1.items[i].book].stock - s1.items[i].quantity)
            && (forall b :: b in s1.books && (forall i :: InCart(s1.items, cart, i) ==> s1.items[i].book != b) ==>
                  r.books[b] == s1.books[b])
  {
    GetUserCartKeepsInvariants(s, u);
    var (s1, cart) := GetUserCart(s, u);
    assert OrderCart(s, u) == Serve(s1, cart);
    ServeTakesEachLine(s1, cart);
    ServeSparesOtherBooks(s1, cart);
  }

  /** Checkout keeps the invariant. */
  lemma OrderCartKeepsValid(s: Store, u: User)
    requires Valid(s)
    ensures Valid(OrderCart(s, u).0)
  {
    GetUserCartKeepsInvariants(s, u);
    var (s1, cart) := GetUserCart(s, u);
    assert OrderCart(s, u) == Checkout(s1, cart);
    CheckoutKeepsValid(s1, cart);
  }

  /** Checking out a cart keeps the store invariant. */
  lemma CheckoutKeepsValid(s: Store, cart: Id)
    requires Valid(s) && cart in s.carts
    ensures Valid(Checkout(s, cart).0)
  {
    var r := Checkout(s, cart).0;
    ActiveCartsShrink(s, r);
    LinesShrink(s, r);
    StockOnlyKeepsNames(s, r);
  }

  /** Changing stock figures only keeps book names unique. */
  lemma StockOnlyKeepsNames(s: Store, t: Store)
    requires UniqueNames(s) && StockOnly(s.books, t.books)
    ensures UniqueNames(t)
  {
    forall i, j | i in t.books && j in t.books && t.books[i].name == t.books[j].name ensures i == j {
      assert s.books[i].name == s.books[j].name;
    }
  }

  /** Checkout keeps every cart's totals equal to its sums: it touches
      neither lines nor totals. */
  lemma OrderCartKeepsConsistent(s: Store, u: User)
    requires Valid(s) && Consistent(s)
    ensures Consistent(OrderCart(s, u).0)
  {
    GetUserCartKeepsInvariants(s, u);
    var (s1, cart) := GetUserCart(s, u);
    assert OrderCart(s, u) == Checkout(s1, cart);
    CheckoutKeepsConsistent(s1, cart);
  }

  /** Checking out a cart changes no line and no total. */
  lemma CheckoutKeepsConsistent(s: Store, cart: Id)
    requires WellFormed(s) && cart in s.carts && Consistent(s)
    ensures Consistent(Checkout(s, cart).0)
  {
    var (r, o) := Checkout(s, cart);
    if r.carts != s.carts {
      assert r.carts == s.carts[cart := s.carts[cart].(isOrdered := true)];
    }
    forall c | c in r.carts ensures TotalsMatch(r, c) {
      assert TotalsMatch(s, c);
    }
  }

  // ---------------------------------------------------------------------------
  // delete_cart

  /** DELETE delete_cart: fetch (or create) the active cart and delete it;
      its lines go with it by cascade. It always succeeds. */
  function DeleteCart(s: Store, u: User): (r: (Store, Outcome))
    requires WellFormed(s)
    ensures r.0.catalogCache == s.catalogCache
    ensures WellFormed(r.0)
    ensures r.1 == Ok(CartDeleted)
    ensures r.0.books == s.books
    ensures var (s1, cart) := GetUserCart(s, u);
            && r.0.carts.Keys == s1.carts.Keys - {cart}
            && (forall c :: c in r.0.carts ==> r.0.carts[c] == s1.carts[c])
            && (forall i :: i in r.0.items <==> i in s1.items && !InCart(s1.items, cart, i))
            && (forall i :: i in r.0.items ==> r.0.items[i] == s1.items[i])
    ensures OneActiveCart(s) ==> forall c :: !IsActive(r.0.carts, u.id, c)
  {
    var (s1, cart) := GetUserCart(s, u);
    (DeleteCartCascade(s1, cart), Ok(CartDeleted))
  }

  /** Deleting the cart keeps the invariant and every remaining cart's totals
      equal to its sums. */
  lemma DeleteCartKeepsInvariants(s: Store, u: User)
    requires Valid(s)
    ensures Valid(DeleteCart(s, u).0)
    ensures Consistent(s) ==> Consistent(DeleteCart(s, u).0)
  {
    GetUserCartKeepsInvariants(s, u);
    var (s1, cart) := GetUserCart(s, u);
    var r := DeleteCart(s, u).0;
    if Consistent(s) {
      forall c | c in r.carts ensures TotalsMatch(r, c) {
        assert TotalsMatch(s1, c);
        forall m: Measure ensures CartSum(r.items, c, r.nextId, m) == CartSum(s1.items, c, s1.nextId, m) {
          forall k: nat | k < r.nextId ensures SameLine(s1.items, r.items, c, k) { }
          CartSumFrame(s1.items, r.items, c, r.nextId, m);
        }
      }
    }
  }
}

=== FILE: findings.dfy ===
/** Three defects, each shown on a concrete store next to the behaviour that
    was evidently intended and the property that behaviour has:
    - removing one cart line recomputes the price total as a sum of
      `quantity * price`, although the comment at cart/views.py:99 says a
      line's `price` already is the price times the quantity;
    - a checkout refused for lack of stock (cart/views.py:179-182) keeps the
      stock decrements already saved for the lines before, while the cart
      stays unordered;
    - the catalog listing answers from the result cache of a class-level
      queryset (book/views.py:13, 22), so it stops showing changes to the
      catalog after its first evaluation. */
module Findings {
  import opened Values
  import opened Models
  import opened Outcomes
  import C = CartViews
  import B = BookViews
  import A = Api

  // ---------------------------------------------------------------------------
  // A small store: user 9 has cart 3 with two lines.
  //   book 1 "A": price 1000, stock 10     line 4: 2 of book 1, subtotal 2000
  //   book 2 "B": price 500,  stock 0      line 5: 1 of book 2, subtotal 500

  const Shop := Store(
    map[1 := Book("A", "x", None, 1000, 10, 9), 2 := Book("B", "y", None, 500, 0, 9)],
    map[3 := Cart(9, 2500, 3, false)],
    map[4 := CartItem(3, 1, 2, 2000), 5 := CartItem(3, 2, 1, 500)],
    6, None)

  const Buyer := User(9, false)

  /** The small store satisfies the invariant. */
  lemma ShopIsValid()
    ensures Valid(Shop)
  {
    ShopIsWellFormed();
    ShopHasOneActiveCart();
    ShopHasOneLinePerBook();
    ShopHasUniqueNames();
  }

  /** Its keys lie below the counter and its lines link to its cart and books. */
  lemma ShopIsWellFormed()
    ensures WellFormed(Shop)
  {
  }

  /** User 9 has one unordered cart. */
  lemma ShopHasOneActiveCart()
    ensures OneActiveCart(Shop)
  {
  }

  /** Cart 3 has one line per book. */
  lemma ShopHasOneLinePerBook()
    ensures OneLinePerBook(Shop)
  {
  }

  /** Its two books have different names. */
  lemma ShopHasUniqueNames()
    ensures UniqueNames(Shop)
  {
    assert Shop.books[1].name != Shop.books[2].name by {
      assert Shop.books[1].name[0] == 'A';
    }
  }

  /** The buyer's active cart is cart 3 and fetching it changes nothing. */
  lemma ShopCart()
    ensures C.GetUserCart(Shop, Buyer) == (Shop, 3)
  {
    assert FindActive(Shop.carts, 9, 3).None?;
    assert FindActive(Shop.carts, 9, 6) == Some(3);
  }

  /** Cart 3 lists lines 4 and 5, in that order. */
  lemma ShopLines()
    ensures LineIds(Shop, 3) == [4, 5]
  {
    TwoLines(Shop.items, 3);
  }

  /** The listing of a cart that holds exactly the lines 4 and 5. */
  lemma TwoLines(items: map<Id, CartItem>, cart: Id)
    requires items.Keys == {4, 5} && items[4].cart == cart && items[5].cart == cart
    ensures LineIdsBelow(items, cart, 6) == [4, 5]
  {
    var l4 := LineIdsBelow(items, cart, 4);
    assert l4 == [] by {
      assert forall id: nat :: id < 4 ==> !InCart(items, cart, id);
      LineIdsEmpty(items, cart, 4);
    }
    LineIdsNext(items, cart, 4);
    LineIdsNext(items, cart, 5);
    assert [] + [4] + [5] == [4, 5];
  }

  /** A sum over a cart whose only line is `k`. */
  lemma {:induction false} OneLineSum(items: map<Id, CartItem>, cart: Id, n: nat, m: Measure, k: Id)
    requires items.Keys == {k} && items[k].cart == cart
    ensures CartSum(items, cart, n, m) == if k < n then Amount(items[k], m) else 0
  {
    if n > 0 {
      OneLineSum(items, cart, n - 1, m, k);
    }
  }

  /** The totals of cart 3 equal the sums over its lines. */
  lemma ShopIsConsistent()
    ensures Consistent(Shop)
  {
    forall m: Measure ensures CartSum(Shop.items, 3, 4, m) == 0 {
      CartSumNoLines(Shop.items, 3, 4, m);
    }
    assert TotalsMatch(Shop, 3);
  }

  // ---------------------------------------------------------------------------
  // Removing a line multiplies the remaining subtotals by their quantities

  /** As written: after removing line 5 the price total is 2 * 2000 = 4000,
      although the only line left has a subtotal of 2000. */
  lemma RemoveItemDoublesPrice()
    ensures var r := C.Destroy(Shop, Buyer, Some(5)).0;
            && r.carts[3].totalQuantity == 2
            && r.carts[3].totalPrice == 4000
            && CartSum(r.items, 3, r.nextId, Price) == 2000
            && !Consistent(r)
  {
    ShopCart();
    var r := C.Destroy(Shop, Buyer, Some(5)).0;
    assert r.items == map[4 := CartItem(3, 1, 2, 2000)];
    OneLineSum(r.items, 3, 6, Quantity, 4);
    OneLineSum(r.items, 3, 6, QuantityTimesPrice, 4);
    OneLineSum(r.items, 3, 6, Price, 4);
    assert !TotalsMatch(r, 3);
  }

  /** Intended: removing one line recomputes the price total as the sum of
      the line subtotals, as `create` does. */
  function RemoveLineIntended(s: Store, cart: Id, id: Id): (r: Store)
    requires WellFormed(s) && cart in s.carts && InCart(s.items, cart, id)
    ensures WellFormed(r)
    ensures r.items == s.items - {id} && r.books == s.books && r.nextId == s.nextId
    ensures r.carts.Keys == s.carts.Keys
    ensures forall c :: c in s.carts && c != cart ==> r.carts[c] == s.carts[c]
    ensures TotalsMatch(r, cart)
  {
    C.Retotal(s.(items := s.items - {id}), cart, Price)
  }

  /** Intended `destroy`: as written, except that removing one line uses
      `RemoveLineIntended`. */
  function DestroyIntended(s: Store, u: User, pk: Option<int>): (r: (Store, Outcome))
    requires WellFormed(s)
    ensures WellFormed(r.0)
    ensures r.1 == C.Destroy(s, u, pk).1
    ensures r.0.items == C.Destroy(s, u, pk).0.items && r.0.carts.Keys == C.Destroy(s, u, pk).0.carts.Keys
  {
    var (s1, cart) := C.GetUserCart(s, u);
    match pk
    case Some(id) =>
      if C.HoldsLine(s1.items, cart, id) then (RemoveLineIntended(s1, cart, id), Ok(ItemsRemoved))
      else C.Destroy(s, u, pk)
    case None => C.Destroy(s, u, pk)
  }

  /** With the intended recomputation, removing a line keeps every cart's
      totals equal to its sums. */
  lemma RemoveLineIntendedKeepsConsistent(s: Store, cart: Id, id: Id)
    requires WellFormed(s) && cart in s.carts && InCart(s.items, cart, id) && Consistent(s)
    ensures Consistent(RemoveLineIntended(s, cart, id))
  {
    var r := RemoveLineIntended(s, cart, id);
    forall c | c in r.carts && c != cart ensures TotalsMatch(r, c) {
      assert TotalsMatch(s, c);
      forall m: Measure ensures CartSum(r.items, c, r.nextId, m) == CartSum(s.items, c, s.nextId, m) {
        forall k: nat | k < r.nextId ensures SameLine(s.items, r.items, c, k) { }
        CartSumFrame(s.items, r.items, c, r.nextId, m);
      }
    }
  }

  /** The intended `destroy` keeps every cart's totals equal to its sums,
      whatever it is asked to remove. */
  lemma DestroyIntendedKeepsConsistent(s: Store, u: User, pk: Option<int>)
    requires Valid(s) && Consistent(s)
    ensures Consistent(DestroyIntended(s, u, pk).0)
  {
    C.GetUserCartKeepsInvariants(s, u);
    var (s1, cart) := C.GetUserCart(s, u);
    if pk.Some? && C.HoldsLine(s1.items, cart, pk.value) {
      RemoveLineIntendedKeepsConsistent(s1, cart, pk.value);
    } else {
      C.ClearCartKeepsInvariants(s, u);
    }
  }

  /** The intended removal lowers the price total by the removed subtotal. */
  lemma DestroyIntendedLowersByLine(s: Store, u: User, id: Id)
    requires Valid(s) && Consistent(s)
    requires InCart(C.GetUserCart(s, u).0.items, C.GetUserCart(s, u).1, id)
    ensures var (s1, cart) := C.GetUserCart(s, u);
            var r := DestroyIntended(s, u, Some(id)).0;
            && r.carts[cart].totalPrice + s1.items[id].price == s1.carts[cart].totalPrice
            && r.carts[cart].totalQuantity + s1.items[id].quantity == s1.carts[cart].totalQuantity
  {
    C.GetUserCartKeepsInvariants(s, u);
    var (s1, cart) := C.GetUserCart(s, u);
    assert TotalsMatch(s1, cart);
    CartSumRemove(s1.items, cart, s1.nextId, Price, id);
    CartSumRemove(s1.items, cart, s1.nextId, Quantity, id);
  }

  // ---------------------------------------------------------------------------
  // A failed checkout keeps the decrements made before the failure

  /** As written: line 4 is served (stock of "A" 10 -> 8), line 5 finds no
      stock of "B"; the request fails and the stock of "A" stays at 8. */
  lemma CheckoutLeavesPartialDecrement()
    ensures var r := C.OrderCart(Shop, Buyer);
            && r.1 == Err(NotEnoughStock("B", 0))
            && r.0.books[1].stock == 8
            && Shop.books[1].stock == 10
            && !r.0.carts[3].isOrdered
  {
    ShopCart();
    ShopLines();
    var d := C.Decrement(Shop.books, Shop.items, [4, 5]);
    var a := Shop.books[1].(stock := 8);
    assert C.Take(Shop.books, Shop.items[4]) == Shop.books[1 := a];
    assert C.Decrement(Shop.books[1 := a], Shop.items, [5]) == (Shop.books[1 := a], Some(0));
    assert d == (Shop.books[1 := a], Some(1));
  }

  /** Intended: the stock check and the decrements form one unit; when any
      line is short, nothing is saved. */
  function OrderCartAtomic(s: Store, u: User): (r: (Store, Outcome))
    requires WellFormed(s)
    ensures WellFormed(r.0)
    ensures r.1 == C.OrderCart(s, u).1
    ensures r.1.Ok? ==> r.0 == C.OrderCart(s, u).0
    ensures r.1.Err? ==> r.0 == C.GetUserCart(s, u).0
  {
    var (s1, cart) := C.GetUserCart(s, u);
    var r := C.Checkout(s1, cart);
    if r.1.Err? then (s1, r.1) else r
  }

  /** With the intended checkout a failed order changes no stock at all. */
  lemma AtomicCheckoutFailureKeepsStock(s: Store, u: User)
    requires WellFormed(s)
    requires OrderCartAtomic(s, u).1.Err?
    ensures OrderCartAtomic(s, u).0.books == s.books
    ensures OrderCartAtomic(s, u).0.items == s.items
  {
  }

  /** The intended checkout on the small store fails and leaves it as it was. */
  lemma AtomicCheckoutOnShop()
    ensures OrderCartAtomic(Shop, Buyer) == (Shop, Err(NotEnoughStock("B", 0)))
  {
    ShopCart();
    ShopLines();
    CheckoutLeavesPartialDecrement();
  }

  // ---------------------------------------------------------------------------
  // The catalog listing answers from the first listing's cache

  /** As written: the catalog is listed, a superuser then creates a book
      under a fresh name, and the catalog is listed again. The second listing
      repeats the first one, so the new book, now in the catalog, is missing. */
  lemma ListMissesNewBook(s: Store, u: User, admin: User, d: B.BookDraft)
    requires WellFormed(s) && s.catalogCache.None?
    requires admin.isSuperuser && !B.NameClash(s.books, d.name, -1)
    ensures var (s1, first) := B.List(s, u);
            var s2 := B.Create(s1, admin, d).0;
            && s.nextId in s2.books
            && B.List(s2, u).1 == first
            && s.nextId !in first.reply.listing.ids
            && s.nextId !in first.reply.listing.books
  {
  }

  /** Intended `list`: evaluate the queryset afresh on every request, as
      `get_queryset()` does for the other catalog handlers. The listing then
      holds exactly the books the catalog holds at that moment. */
  function ListIntended(s: Store, u: User): (r: (Store, Outcome))
    requires WellFormed(s)
    ensures r.0 == s && r.1.Ok? && r.1.reply.Catalog?
    ensures r.1.reply.listing.books == s.books
    ensures forall id: nat :: id in r.1.reply.listing.ids <==> id in s.books
  {
    (s, Ok(Catalog(B.Snapshot(s))))
  }

  /** With the intended listing, a book a superuser just created is listed. */
  lemma ListIntendedSeesCreate(s: Store, u: User, admin: User, d: B.BookDraft)
    requires WellFormed(s)
    requires admin.isSuperuser && !B.NameClash(s.books, d.name, -1)
    ensures var s2 := B.Create(ListIntended(s, u).0, admin, d).0;
            s.nextId in ListIntended(s2, u).1.reply.listing.ids
  {
  }

  // ---------------------------------------------------------------------------
  // The handlers with the three corrections

  /** The dispatcher with the three corrected handlers in place. Apart from
      the listing, it answers every request as the original does. */
  function StepIntended(s: Store, u: User, req: A.Request): (r: (Store, Outcome))
    requires WellFormed(s)
    ensures WellFormed(r.0)
    ensures !req.ListBooks? ==> r.1 == A.Step(s, u, req).1
    ensures req.ListBooks? ==> r.0 == s
  {
    match req
    case RemoveItems(pk) =>
      StepRemovesItems(s, u, pk);
      DestroyIntended(s, u, pk)
    case OrderCart =>
      StepOrdersCart(s, u);
      OrderCartAtomic(s, u)
    case ListBooks => ListIntended(s, u)
    case _ => A.Step(s, u, req)
  }

  /** The dispatcher answers a removal as `destroy` does. */
  lemma StepRemovesItems(s: Store, u: User, pk: Option<int>)
    requires WellFormed(s)
    ensures A.Step(s, u, A.RemoveItems(pk)).1 == C.Destroy(s, u, pk).1
  {
  }

  /** The dispatcher answers a checkout as `order_cart` does. */
  lemma StepOrdersCart(s: Store, u: User)
    requires WellFormed(s)
    ensures A.Step(s, u, A.OrderCart).1 == C.OrderCart(s, u).1
  {
  }

  /** With the corrections, every request except deleting a book keeps every
      cart's totals equal to its sums. */
  lemma StepIntendedKeepsConsistent(s: Store, u: User, req: A.Request)
    requires Valid(s) && Consistent(s) && !req.DeleteBook?
    ensures Consistent(StepIntended(s, u, req).0)
  {
    match req
    case RemoveItems(pk) => DestroyIntendedKeepsConsistent(s, u, pk);
    case OrderCart =>
      C.GetUserCartKeepsInvariants(s, u);
      A.StepKeepsConsistent(s, u, req);
    case ListBooks =>
    case _ => A.StepKeepsConsistent(s, u, req);
  }
}

=== FILE: models.dfy ===
/** The persistent store the handlers run on: the Book, Cart and CartItem
    tables, their integrity constraints, the per-cart sums the handlers
    recompute, and the ON DELETE CASCADE behaviour of the foreign keys. */
module Models {
  import opened Values

  /** Primary keys. One counter hands out fresh keys for all three tables. */
  type Id = nat

  /** An authenticated caller: the two facts the handlers read about a user. */
  datatype User = User(id: Id, isSuperuser: bool)

  /** A catalog entry. `name` and `author` are required, `description` may be
      null, `price` and `stock` are non-negative, `owner` is the creating user. */
  datatype Book = Book(name: string, author: string, description: Option<string>,
                       price: nat, stock: nat, owner: Id)

  /** A cart. Totals are non-negative and are written only by the cart handlers. */
  datatype Cart = Cart(user: Id, totalPrice: nat, totalQuantity: nat, isOrdered: bool)

  /** A line of a cart. `price` is a line subtotal (unit price times quantity
      when the cart handler last wrote it), not a unit price. */
  datatype CartItem = CartItem(cart: Id, book: Id, quantity: nat, price: nat)

  /** The books of the catalog in key order, as one evaluation of
      `Book.objects.all()` read them. */
  datatype Listing = Listing(ids: seq<Id>, books: map<Id, Book>)

  /** The three tables and the key counter. `catalogCache` is not in the
      database: it is the result cache of the queryset `BookViewSet` holds as
      a class attribute, shared by every request the process serves. It is
      empty until the catalog is first listed. */
  datatype Store = Store(books: map<Id, Book>, carts: map<Id, Cart>,
                         items: map<Id, CartItem>, nextId: Id,
                         catalogCache: Option<Listing>)

  /** A cart as `Cart.objects.create(user=...)` makes it: every field at its default. */
  function NewCart(user: Id): Cart {
    Cart(user, 0, 0, false)
  }

  /** A line as `CartItem.objects.create(cart=..., book=...)` makes it. */
  function NewItem(cart: Id, book: Id): CartItem {
    CartItem(cart, book, 0, 0)
  }

  // ---------------------------------------------------------------------------
  // Integrity of the store

  /** Every key was handed out by the counter. */
  predicate KeysBelow(s: Store) {
    && (forall id :: id in s.books ==> id < s.nextId)
    && (forall id :: id in s.carts ==> id < s.nextId)
    && (forall id :: id in s.items ==> id < s.nextId)
  }

  /** The two foreign keys of CartItem point at existing rows. */
  predicate ItemsLinked(s: Store) {
    forall id :: id in s.items ==> s.items[id].cart in s.carts && s.items[id].book in s.books
  }

  /** What the database itself guarantees: primary and foreign keys. */
  predicate WellFormed(s: Store) {
    KeysBelow(s) && ItemsLinked(s)
  }

  predicate IsActive(carts: map<Id, Cart>, user: Id, id: Id) {
    id in carts && carts[id].user == user && !carts[id].isOrdered
  }

  /** At most one unordered cart per user. The schema does not enforce it;
      the get-or-create discipline of the cart handlers does. */
  predicate OneActiveCart(s: Store) {
    forall i, j :: i in s.carts && j in s.carts && IsActive(s.carts, s.carts[i].user, i) && IsActive(s.carts, s.carts[i].user, j) ==> i == j
  }

  predicate IsLine(items: map<Id, CartItem>, cart: Id, book: Id, id: Id) {
    id in items && items[id].cart == cart && items[id].book == book
  }

  /** At most one line per (cart, book). Again kept by get-or-create only. */
  predicate OneLinePerBook(s: Store) {
    forall i, j :: i in s.items && j in s.items && IsLine(s.items, s.items[i].cart, s.items[i].book, j) ==> i == j
  }

  /** `Book.name` is declared unique. */
  predicate UniqueNames(s: Store) {
    forall i, j :: i in s.books && j in s.books && s.books[i].name == s.books[j].name ==> i == j
  }

  /** The store invariant every handler keeps. */
  predicate Valid(s: Store) {
    WellFormed(s) && OneActiveCart(s) && OneLinePerBook(s) && UniqueNames(s)
  }

  /** No cart appears, changes owner or is reopened: the unordered carts of
      `t` are unordered carts of `s`, so at most one per user remains. */
  lemma ActiveCartsShrink(s: Store, t: Store)
    requires OneActiveCart(s)
    requires forall c :: c in t.carts ==> && c in s.carts && t.carts[c].user == s.carts[c].user
                                          && (!t.carts[c].isOrdered ==> !s.carts[c].isOrdered)
    ensures OneActiveCart(t)
  {
    forall i, j | i in t.carts && j in t.carts && IsActive(t.carts, t.carts[i].user, i) && IsActive(t.carts, t.carts[i].user, j)
      ensures i == j
    {
      assert IsActive(s.carts, s.carts[i].user, i) && IsActive(s.carts, s.carts[i].user, j);
    }
  }

  /** No line appears or moves to another (cart, book): at most one line per
      (cart, book) remains. */
  lemma LinesShrink(s: Store, t: Store)
    requires OneLinePerBook(s)
    requires forall i :: i in t.items ==> && i in s.items && t.items[i].cart == s.items[i].cart
                                          && t.items[i].book == s.items[i].book
    ensures OneLinePerBook(t)
  {
    forall i, j | i in t.items && j in t.items && IsLine(t.items, t.items[i].cart, t.items[i].book, j)
      ensures i == j
    {
      assert IsLine(s.items, s.items[i].cart, s.items[i].book, j);
    }
  }

  /** No book appears or is renamed: book names stay unique. */
  lemma NamesShrink(s: Store, t: Store)
    requires UniqueNames(s)
    requires forall b :: b in t.books ==> b in s.books && t.books[b].name == s.books[b].name
    ensures UniqueNames(t)
  {
    forall i, j | i in t.books && j in t.books && t.books[i].name == t.books[j].name ensures i == j {
      assert s.books[i].name == s.books[j].name;
    }
  }

  const EmptyStore := Store(map[], map[], map[], 1, None)

  /** A fresh database satisfies the invariant. */
  lemma EmptyStoreValid()
    ensures Valid(EmptyStore)
  {
  }

  // ---------------------------------------------------------------------------
  // Lookups by scanning the key range, in ascending key order

  /** `Cart.objects.get(user=u, is_ordered=False)` when that cart is unique:
      the lowest-keyed unordered cart of `user` below `n`. */
  function FindActive(carts: map<Id, Cart>, user: Id, n: nat): (r: Option<Id>)
    ensures r.Some? ==> r.value < n && IsActive(carts, user, r.value)
    ensures r.None? ==> forall id: nat :: id < n ==> !IsActive(carts, user, id)
  {
    if n == 0 then None
    else
      match FindActive(carts, user, n - 1)
      case Some(id) => Some(id)
      case None => if IsActive(carts, user, n - 1) then Some(n - 1) else None
  }

  /** `CartItem.objects.get(cart=c, book=b)` when that line is unique. */
  function FindLine(items: map<Id, CartItem>, cart: Id, book: Id, n: nat): (r: Option<Id>)
    ensures r.Some? ==> r.value < n && IsLine(items, cart, book, r.value)
    ensures r.None? ==> forall id: nat :: id < n ==> !IsLine(items, cart, book, id)
  {
    if n == 0 then None
    else
      match FindLine(items, cart, book, n - 1)
      case Some(id) => Some(id)
      case None => if IsLine(items, cart, book, n - 1) then Some(n - 1) else None
  }

  predicate InCart(items: map<Id, CartItem>, cart: Id, id: Id) {
    id in items && items[id].cart == cart
  }

  /** The keys of a cart's lines below `n`, ascending. */
  function LineIdsBelow(items: map<Id, CartItem>, cart: Id, n: nat): (r: seq<Id>)
    ensures forall k :: 0 <= k < |r| ==> r[k] < n && InCart(items, cart, r[k])
    ensures forall i, j :: 0 <= i < j < |r| ==> r[i] < r[j]
  {
    if n == 0 then []
    else LineIdsBelow(items, cart, n - 1) + (if InCart(items, cart, n - 1) then [n - 1] else [])
  }

  /** Every line of the cart below `n` is listed. */
  lemma {:induction false} LineIdsComplete(items: map<Id, CartItem>, cart: Id, n: nat, id: Id)
    requires id < n && InCart(items, cart, id)
    ensures id in LineIdsBelow(items, cart, n)
  {
    if id < n - 1 {
      LineIdsComplete(items, cart, n - 1, id);
    }
  }

  /** The listing holds exactly the cart's lines below `n`. */
  lemma LineIdsExact(items: map<Id, CartItem>, cart: Id, n: nat)
    ensures forall id: nat :: id in LineIdsBelow(items, cart, n) <==> id < n && InCart(items, cart, id)
  {
    forall id: nat | id < n && InCart(items, cart, id) ensures id in LineIdsBelow(items, cart, n) {
      LineIdsComplete(items, cart, n, id);
    }
  }

  /** `cart.items.all()`, in key order. */
  function LineIds(s: Store, cart: Id): seq<Id> {
    LineIdsBelow(s.items, cart, s.nextId)
  }

  /** The set of books in the catalog, as `Book.objects.all()` in key order. */
  function BookIdsBelow(books: map<Id, Book>, n: nat): (r: seq<Id>)
    ensures forall k :: 0 <= k < |r| ==> r[k] < n && r[k] in books
    ensures forall i, j :: 0 <= i < j < |r| ==> r[i] < r[j]
  {
    if n == 0 then []
    else BookIdsBelow(books, n - 1) + (if n - 1 in books then [n - 1] else [])
  }

  /** Every book below `n` is listed. */
  lemma {:induction false} BookIdsComplete(books: map<Id, Book>, n: nat, id: Id)
    requires id < n && id in books
    ensures id in BookIdsBelow(books, n)
  {
    if id < n - 1 {
      BookIdsComplete(books, n - 1, id);
    }
  }

  /** The catalog listing holds exactly the books below `n`. */
  lemma BookIdsExact(books: map<Id, Book>, n: nat)
    ensures forall id: nat :: id in BookIdsBelow(books, n) <==> id < n && id in books
  {
    forall id: nat | id < n && id in books ensures id in BookIdsBelow(books, n) {
      BookIdsComplete(books, n, id);
    }
  }

  // ---------------------------------------------------------------------------
  // Sums over a cart's lines

  /** What a sum over the lines adds up: `item.quantity`, `item.price`, or
      `item.quantity * item.price`. */
  datatype Measure = Quantity | Price | QuantityTimesPrice

  function Amount(it: CartItem, m: Measure): nat {
    match m
    case Quantity => it.quantity
    case Price => it.price
    case QuantityTimesPrice => it.quantity * it.price
  }

  /** `sum(measure(item) for item in cart.items.all())` over keys below `n`. */
  function CartSum(items: map<Id, CartItem>, cart: Id, n: nat, m: Measure): nat {
    if n == 0 then 0
    else CartSum(items, cart, n - 1, m) + (if InCart(items, cart, n - 1) then Amount(items[n - 1], m) else 0)
  }

  /** The cart's stored totals equal the sums over its current lines. */
  predicate TotalsMatch(s: Store, cart: Id)
    requires cart in s.carts
  {
    && s.carts[cart].totalQuantity == CartSum(s.items, cart, s.nextId, Quantity)
    && s.carts[cart].totalPrice == CartSum(s.items, cart, s.nextId, Price)
  }

  predicate Consistent(s: Store) {
    forall c :: c in s.carts ==> TotalsMatch(s, c)
  }

  /** Two item tables agree on what cart `cart` holds at key `id`. */
  predicate SameLine(i1: map<Id, CartItem>, i2: map<Id, CartItem>, cart: Id, id: Id) {
    && (InCart(i1, cart, id) <==> InCart(i2, cart, id))
    && (InCart(i1, cart, id) ==> i1[id] == i2[id])
  }

  /** A sum depends only on the cart's own lines. */
  lemma {:induction false} CartSumFrame(i1: map<Id, CartItem>, i2: map<Id, CartItem>, cart: Id, n: nat, m: Measure)
    requires forall id: nat :: id < n ==> SameLine(i1, i2, cart, id)
    ensures CartSum(i1, cart, n, m) == CartSum(i2, cart, n, m)
  {
    if n > 0 {
      assert SameLine(i1, i2, cart, n - 1);
      CartSumFrame(i1, i2, cart, n - 1, m);
    }
  }

  /** A cart with no lines sums to 0. */
  lemma {:induction false} CartSumNoLines(items: map<Id, CartItem>, cart: Id, n: nat, m: Measure)
    requires forall id: nat :: id < n ==> !InCart(items, cart, id)
    ensures CartSum(items, cart, n, m) == 0
  {
    if n > 0 {
      assert !InCart(items, cart, n - 1);
      CartSumNoLines(items, cart, n - 1, m);
    }
  }

  /** Overwriting one line changes the sum by the difference of the two amounts. */
  lemma {:induction false} CartSumReplace(items: map<Id, CartItem>, cart: Id, n: nat, m: Measure, id: Id, it: CartItem)
    requires id < n && InCart(items, cart, id) && it.cart == cart
    ensures CartSum(items[id := it], cart, n, m) + Amount(items[id], m) == CartSum(items, cart, n, m) + Amount(it, m)
  {
    var items' := items[id := it];
    if id == n - 1 {
      forall k: nat | k < n - 1 ensures SameLine(items, items', cart, k) { }
      CartSumFrame(items, items', cart, n - 1, m);
    } else {
      assert SameLine(items, items', cart, n - 1);
      CartSumReplace(items, cart, n - 1, m, id, it);
    }
  }

  /** Removing one line lowers the sum by that line's amount. */
  lemma {:induction false} CartSumRemove(items: map<Id, CartItem>, cart: Id, n: nat, m: Measure, id: Id)
    requires id < n && InCart(items, cart, id)
    ensures CartSum(items - {id}, cart, n, m) + Amount(items[id], m) == CartSum(items, cart, n, m)
  {
    var items' := items - {id};
    if id == n - 1 {
      forall k: nat | k < n - 1 ensures SameLine(items, items', cart, k) { }
      CartSumFrame(items, items', cart, n - 1, m);
    } else {
      assert SameLine(items, items', cart, n - 1);
      CartSumRemove(items, cart, n - 1, m, id);
    }
  }

  /** A line stored under a fresh key adds its amount to the sum. */
  lemma CartSumAppend(items: map<Id, CartItem>, cart: Id, n: nat, m: Measure, it: CartItem)
    requires forall id :: id in items ==> id < n
    requires it.cart == cart
    ensures CartSum(items[n := it], cart, n + 1, m) == CartSum(items, cart, n, m) + Amount(it, m)
  {
    var items' := items[n := it];
    forall k: nat | k < n ensures SameLine(items, items', cart, k) { }
    CartSumFrame(items, items', cart, n, m);
  }

  /** Keys at or above the counter hold nothing, so scanning further adds nothing. */
  lemma {:induction false} CartSumBeyond(items: map<Id, CartItem>, cart: Id, n: nat, n': nat, m: Measure)
    requires n <= n'
    requires forall id :: id in items ==> id < n
    ensures CartSum(items, cart, n', m) == CartSum(items, cart, n, m)
  {
    if n < n' {
      CartSumBeyond(items, cart, n, n' - 1, m);
    }
  }

  /** Scanning one key further appends that key when it is a line of the cart. */
  lemma LineIdsNext(items: map<Id, CartItem>, cart: Id, n: nat)
    ensures LineIdsBelow(items, cart, n + 1) ==
              LineIdsBelow(items, cart, n) + (if InCart(items, cart, n) then [n] else [])
  {
  }

  /** The listing of a cart is empty exactly when the cart has no line below `n`. */
  lemma LineIdsEmpty(items: map<Id, CartItem>, cart: Id, n: nat)
    ensures LineIdsBelow(items, cart, n) == [] <==> forall id: nat :: id < n ==> !InCart(items, cart, id)
  {
    var r := LineIdsBelow(items, cart, n);
    if r != [] {
      assert r[0] < n && InCart(items, cart, r[0]);
    }
  }

  /** A cart whose listing is empty sums to 0. */
  lemma EmptyListingSumsToZero(items: map<Id, CartItem>, cart: Id, n: nat, m: Measure)
    ensures LineIdsBelow(items, cart, n) == [] ==> CartSum(items, cart, n, m) == 0
  {
    LineIdsEmpty(items, cart, n);
    if LineIdsBelow(items, cart, n) == [] {
      CartSumNoLines(items, cart, n, m);
    }
  }

  // ---------------------------------------------------------------------------
  // ON DELETE CASCADE

  /** `cart.delete()`: the cart goes, and every item whose cart it was. */
  function DeleteCartCascade(s: Store, cart: Id): (r: Store)
    ensures r.books == s.books && r.nextId == s.nextId && r.catalogCache == s.catalogCache
    ensures r.carts.Keys == s.carts.Keys - {cart}
    ensures forall c :: c in r.carts ==> r.carts[c] == s.carts[c]
    ensures forall id :: id in r.items <==> id in s.items && s.items[id].cart != cart
    ensures forall id :: id in r.items ==> r.items[id] == s.items[id]
    ensures WellFormed(s) ==> WellFormed(r)
  {
    s.(carts := s.carts - {cart},
       items := map id | id in s.items && s.items[id].cart != cart :: s.items[id])
  }

  /** `book.delete()`: the book goes, and every cart item that refers to it,
      whatever cart it is in. No cart total is touched. */
  function DeleteBookCascade(s: Store, book: Id): (r: Store)
    ensures r.carts == s.carts && r.nextId == s.nextId && r.catalogCache == s.catalogCache
    ensures r.books.Keys == s.books.Keys - {book}
    ensures forall b :: b in r.books ==> r.books[b] == s.books[b]
    ensures forall id :: id in r.items <==> id in s.items && s.items[id].book != book
    ensures forall id :: id in r.items ==> r.items[id] == s.items[id]
    ensures WellFormed(s) ==> WellFormed(r)
  {
    s.(books := s.books - {book},
       items := map id | id in s.items && s.items[id].book != book :: s.items[id])
  }

  /** Deleting a user: their carts and books go, and with them every cart item
      in one of those carts or for one of those books. */
  function DeleteUserCascade(s: Store, user: Id): (r: Store)
    ensures r.nextId == s.nextId && r.catalogCache == s.catalogCache
    ensures forall c :: c in r.carts <==> c in s.carts && s.carts[c].user != user
    ensures forall c :: c in r.carts ==> r.carts[c] == s.carts[c]
    ensures forall b :: b in r.books <==> b in s.books && s.books[b].owner != user
    ensures forall b :: b in r.books ==> r.books[b] == s.books[b]
    ensures forall id :: id in r.items <==> id in s.items && s.items[id].cart in r.carts && s.items[id].book in r.books
    ensures forall id :: id in r.items ==> r.items[id] == s.items[id]
    ensures WellFormed(s) ==> WellFormed(r)
  {
    var carts := map c | c in s.carts && s.carts[c].user != user :: s.carts[c];
    var books := map b | b in s.books && s.books[b].owner != user :: s.books[b];
    s.(books := books, carts := carts,
       items := map id | id in s.items && s.items[id].cart in carts && s.items[id].book in books :: s.items[id])
  }

  /** Deleting a cart keeps the store invariant. */
  lemma CartCascadeKeepsValid(s: Store, cart: Id)
    requires Valid(s)
    ensures Valid(DeleteCartCascade(s, cart))
  {
    var r := DeleteCartCascade(s, cart);
    ActiveCartsShrink(s, r);
    LinesShrink(s, r);
  }

  /** Deleting a book keeps the store invariant. */
  lemma BookCascadeKeepsValid(s: Store, book: Id)
    requires Valid(s)
    ensures Valid(DeleteBookCascade(s, book))
  {
    var r := DeleteBookCascade(s, book);
    LinesShrink(s, r);
    NamesShrink(s, r);
  }

  /** Deleting a user keeps the store invariant. */
  lemma UserCascadeKeepsValid(s: Store, user: Id)
    requires Valid(s)
    ensures Valid(DeleteUserCascade(s, user))
  {
    var r := DeleteUserCascade(s, user);
    ActiveCartsShrink(s, r);
    LinesShrink(s, r);
    NamesShrink(s, r);
  }

}

=== FILE: outcomes.dfy ===
/** What a handler answers. The HTTP status, the response envelope and the
    serialised payload collapse into one value: a reply on success, an error
    from a fixed taxonomy otherwise. */
module Outcomes {
  import opened Values
  import opened Models

  /** The three ValidationErrors the cart handler raises on its input. */
  datatype Refusal = Required | NotAnInteger | NotPositive

  datatype Error =
    | Invalid(why: Refusal)                    // ValidationError raised by the cart handler
    | BookNotFound(bookId: int)                // "Book not found." when adding to a cart
    | BookKeyNotANumber                        // ValueError from the lookup by a non-numeric `book_id`, not caught
    | ItemNotFound                             // NotFound('Cart item not found.')
    | AlreadyOrdered                           // "This cart has already been ordered."
    | EmptyCart                                // checkout of a cart without lines
    | NotEnoughStock(name: string, available: nat)
    | Forbidden                                // PermissionDenied on a catalog mutation
    | NoSuchBook                               // Http404 from the catalog lookup by key
    | NameTaken(name: string)                  // the unique constraint on Book.name

  datatype Reply =
    | CartShown(cart: Id, lines: seq<Id>)
    | CartUpdated(cart: Id)
    | ItemsRemoved
    | CartOrdered(cart: Id)
    | CartDeleted
    | Catalog(listing: Listing)
    | BookShown(id: Id, book: Book)
    | BookCreated(id: Id)
    | BookUpdated(id: Id)
    | BookDeleted

  datatype Outcome = Ok(reply: Reply) | Err(error: Error)

  const RequiredMessage := "Both 'book_id' and 'quantity' are required."
  const PositiveMessage := "Quantity must be a positive integer."
  const IntegerMessage := "Quantity must be a valid integer."
  const SuperuserMessage := "Only superusers can create books."
  const StockPrefix := "Not enough stock for "
  const StockMiddle := ". Available stock: "

  /** The message of the `ValidationError` each refusal raises. */
  function RefusalText(w: Refusal): string {
    match w
    case Required => RequiredMessage
    case NotAnInteger => IntegerMessage
    case NotPositive => PositiveMessage
  }

  /** The text a response carries for an error. */
  function Message(e: Error): string {
    match e
    case Invalid(w) => RefusalText(w)
    case BookNotFound(_) => "Book not found."
    case BookKeyNotANumber => "Field 'id' expected a number."
    case ItemNotFound => "Cart item not found."
    case AlreadyOrdered => "This cart has already been ordered."
    case EmptyCart => "Your cart is empty. Please add items before placing an order."
    case NotEnoughStock(name, available) => StockPrefix + name + StockMiddle + NatToString(available)
    case Forbidden => SuperuserMessage
    case NoSuchBook => "No Book matches the given query."
    case NameTaken(_) => "Validation failed."
  }

  /** The parts of a message built by concatenation can be cut out again. */
  lemma ConcatParts(a: string, b: string, c: string, d: string)
    ensures (a + b + c + d)[..|a|] == a
    ensures (a + b + c + d)[|a|..|a| + |b|] == b
    ensures (a + b + c + d)[|a| + |b| + |c|..] == d
  {
  }

  /** The insufficient-stock message names the book and states the stock
      left as decimal digits that read back as that number, through int()
      too when the figure is within int()'s digit limit. */
  lemma StockMessageReadsBack(name: string, available: nat)
    ensures var m := Message(NotEnoughStock(name, available));
            var tail := m[|StockPrefix| + |name| + |StockMiddle|..];
            && m[..|StockPrefix|] == StockPrefix
            && m[|StockPrefix|..|StockPrefix| + |name|] == name
            && AllDigits(tail) && DigitsValue(tail) == available
            && (|tail| <= MaxStrDigits ==> ParseInt(tail) == Some(available))
  {
    DigitsValueOfNatToString(available);
    if |NatToString(available)| <= MaxStrDigits {
      ParseIntOfNatToString(available);
    }
    ConcatParts(StockPrefix, name, StockMiddle, NatToString(available));
  }
}

=== FILE: values.dfy ===
/** Request values as the cart handlers receive them, Python truthiness, and the
    decimal conversions the handlers rely on (`int(quantity)` and the lookup by
    `book_id` when adding to a cart, and the rendering of a stock figure in an error message). */
module Values {

  datatype Option<+T> = None | Some(value: T)

  /** A value read from a request body with `request.data.get(key)`: absent,
      a JSON integer, or a JSON string. */
  datatype Field = Missing | Int(i: int) | Text(s: string)

  /** Python truthiness of a request value: `not v` holds for None, 0 and "". */
  predicate Truthy(f: Field) {
    match f
    case Missing => false
    case Int(i) => i != 0
    case Text(s) => s != ""
  }

  predicate IsDigit(c: char) {
    '0' <= c <= '9'
  }

  predicate AllDigits(s: string) {
    forall i :: 0 <= i < |s| ==> IsDigit(s[i])
  }

  /** The characters Python's int() strips around its argument (ASCII subset). */
  predicate IsSpace(c: char) {
    c == ' ' || 9 <= c as int <= 13
  }

  function DigitValue(c: char): nat
    requires IsDigit(c)
  {
    c as int - '0' as int
  }

  function DigitChar(d: nat): (c: char)
    requires d < 10
    ensures IsDigit(c) && DigitValue(c) == d
  {
    ('0' as int + d) as char
  }

  /** The value of a string of decimal digits, most significant first. */
  function DigitsValue(s: string): nat
    requires AllDigits(s)
  {
    if s == [] then 0 else DigitsValue(s[..|s| - 1]) * 10 + DigitValue(s[|s| - 1])
  }

  /** Decimal rendering of a natural number, as an f-string renders an int. */
  function NatToString(n: nat): (r: string)
    ensures r != [] && AllDigits(r)
    ensures |r| > 1 ==> r[0] != '0'
  {
    if n < 10 then [DigitChar(n)] else NatToString(n / 10) + [DigitChar(n % 10)]
  }

  /** `str.strip()` on the left: leading white space dropped. */
  function TrimStart(s: string): (r: string)
    ensures r == [] || !IsSpace(r[0])
    ensures |r| <= |s| && r == s[|s| - |r|..]
  {
    if s != [] && IsSpace(s[0]) then TrimStart(s[1..]) else s
  }

  /** `str.strip()` on the right: trailing white space dropped. */
  function TrimEnd(s: string): (r: string)
    ensures r == [] || !IsSpace(r[|r| - 1])
    ensures |r| <= |s| && r == s[..|r|]
  {
    if s != [] && IsSpace(s[|s| - 1]) then TrimEnd(s[..|s| - 1]) else s
  }

  /** Python's default `sys.int_info.default_max_str_digits`: int() refuses
      decimal text with more digits than this, raising ValueError. */
  const MaxStrDigits: nat := 4300

  /** The part of Python's int() after trimming: an optional sign, then at
      least one and at most `MaxStrDigits` decimal digits. */
  function ParseSigned(t: string): (r: Option<int>)
    ensures r.Some? ==> t != [] && IsDigit(t[|t| - 1])
  {
    if t == [] then None
    else
      var body := if t[0] == '-' || t[0] == '+' then t[1..] else t;
      if body == [] || !AllDigits(body) || |body| > MaxStrDigits then None
      else
        assert body[|body| - 1] == t[|t| - 1];
        var v: int := DigitsValue(body);
        Some(if t[0] == '-' then -v else v)
  }

  /** Python's int() on a string: surrounding white space is dropped, then an
      optional sign and one to `MaxStrDigits` decimal digits must remain;
      anything else is a ValueError, here None. */
  function ParseInt(s: string): (r: Option<int>)
    ensures r.Some? ==> exists i :: 0 <= i < |s| && IsDigit(s[i])
  {
    var ts := TrimStart(s);
    var t := TrimEnd(ts);
    var r := ParseSigned(t);
    if r.Some? then
      assert t[|t| - 1] == ts[|t| - 1] == s[|s| - |ts| + |t| - 1];
      r
    else r
  }

  /** `int(v)` for a request value. An absent value never reaches the
      conversion in the handlers (it is rejected as falsy first). */
  function ToInt(f: Field): Option<int> {
    match f
    case Missing => None
    case Int(i) => Some(i)
    case Text(s) => ParseInt(s)
  }

  lemma {:induction false} DigitsValueAppend(s: string, c: char)
    requires AllDigits(s) && IsDigit(c)
    ensures AllDigits(s + [c])
    ensures DigitsValue(s + [c]) == DigitsValue(s) * 10 + DigitValue(c)
  {
    assert (s + [c])[..|s|] == s;
  }

  /** Reading back a rendered number gives the number. */
  lemma {:induction false} DigitsValueOfNatToString(n: nat)
    ensures DigitsValue(NatToString(n)) == n
  {
    if n < 10 {
      assert NatToString(n)[..0] == [];
    } else {
      DigitsValueOfNatToString(n / 10);
      DigitsValueAppend(NatToString(n / 10), DigitChar(n % 10));
    }
  }

  /** Text that neither starts nor ends with white space is not trimmed. */
  lemma TrimKeeps(s: string)
    requires s != [] && !IsSpace(s[0]) && !IsSpace(s[|s| - 1])
    ensures TrimEnd(TrimStart(s)) == s
  {
  }

  /** A run of digits within the limit converts to its value; a longer run
      is refused. */
  lemma ParseIntOfDigits(d: string)
    requires d != [] && AllDigits(d)
    ensures |d| <= MaxStrDigits ==> ParseInt(d) == Some(DigitsValue(d) as int)
    ensures |d| > MaxStrDigits ==> ParseInt(d) == None
  {
    TrimKeeps(d);
  }

  /** A minus sign followed by a run of digits within the limit converts to
      the negated value; a longer run is refused. */
  lemma ParseIntOfNegatedDigits(m: string)
    requires |m| > 1 && m[0] == '-' && AllDigits(m[1..])
    ensures |m| - 1 <= MaxStrDigits ==> ParseInt(m) == Some(-(DigitsValue(m[1..]) as int))
    ensures |m| - 1 > MaxStrDigits ==> ParseInt(m) == None
  {
    assert m[1..][|m| - 2] == m[|m| - 1];
    TrimKeeps(m);
    ParseSignedNegated(m);
  }

  /** A minus sign followed by digits reads as the negated digits. */
  lemma ParseSignedNegated(t: string)
    requires |t| > 1 && t[0] == '-' && AllDigits(t[1..])
    ensures |t| - 1 <= MaxStrDigits ==> ParseSigned(t) == Some(-(DigitsValue(t[1..]) as int))
    ensures |t| - 1 > MaxStrDigits ==> ParseSigned(t) == None
  {
  }

  /** The decimal text of a number converts back to that number, as long as
      it has at most `MaxStrDigits` digits. */
  lemma ParseIntOfNatToString(n: nat)
    requires |NatToString(n)| <= MaxStrDigits
    ensures ParseInt(NatToString(n)) == Some(n)
  {
    DigitsValueOfNatToString(n);
    ParseIntOfDigits(NatToString(n));
  }
}
